=== FILE: README.md ===
# cazan-utils point store, modelled in Dafny

cazan-utils keeps the collision points of each image of a game in one
JSON file, `.cazan/build/assets.json`. The file is an array of records. Each
record holds an image `path` and its `points`, and each point has `x`, `y`
and an ordinal `n`. This project models the point store in Dafny:

- the `Point` type (`src/points/mod.rs`) and the older snapshot of it
  (`src/points.rs`, with its private `_Point` and the `mint` conversions);
- the decoder (`src/points/import.rs`):
  - `import` in both modes, over an already parsed JSON value;
  - the first-match lookup `get_image_from_json`, which turns `\` into `/`
    in the query;
  - `extract_points`, with its truncating `as u32` casts;
- the encoder (`src/points/export.rs`), as exact text:
  - `serialize`, `add_4_spaces_before_each_line`, `export_all` and the
    append-in-place `export`;
  - the character pops and the `unwrap` panic, as written.

Every `expect` and `unwrap` panic becomes an `Err`. The `Err` carries the
message passed to `expect`, or the `unwrap` message. A small model of the JSON reader (module
`JsonText`) covers the subset of JSON the writers produce. With it, the
model proves the round trips for writable records, meaning records whose
path needs no JSON escape and whose point list is non-empty:
- the object `serialize` writes reads back through the decoder as its path
  and points;
- the document `export_all` writes for a non-empty map, or `export`
  extends, reads back through `import` as the images that were written.

The modules:

| module | role |
|---|---|
| `Results`, `Primitives` | `Option`/`Result` types; `u32`/`u64`/`usize` and the `as` casts |
| `Points` | `Point`, `new`, `x()`, `y()`, `point()` |
| `Json` | the parts of `serde_json::Value` the decoder uses: indexing, `as_str`, `as_array`, `as_u64` |
| `Decimal` | Rust's `{}` rendering of unsigned integers, and its inverse |
| `Import` | `import`, `get_image_from_json`, `extract_points` |
| `Export` | `serialize`, `add_4_spaces_before_each_line`, `export_all`, `export` |
| `JsonText` | the reader model for the writers' JSON subset |
| `RoundTrip`, `ReadBack` | writers' text read back, then decoded |
| `Legacy` | the older snapshot in `src/points.rs` |
| `Fixtures`, `ExportFixtures`, `ImportFixtures` | the unit tests' expectations, as lemmas |

Where the documented behaviour and the code differ, the model follows the
code:

- **Output format.** The writers do not use a JSON serialiser. They build
  the text by hand.
  - An empty point list is written as `"points":]`.
  - `export_all` of an empty map writes `"\n]"`.
  - Neither text is JSON. `Export.Serialize` and `Export.ExportAll` state
    these outputs.
- **Missing image.** Every decoder failure panics with the same message,
  `Failed to parse .cazan/build/assets.json file`, so there is no separate
  "image not found" error. `ReadBack.LookupMissAfterWrite` states this.
- **File missing or too short.** `export` does not create a missing file:
  a read error is handed back. It also panics (`unwrap` on `None`) on text
  shorter than two characters. `Export.Export` states both.
- **Paths are not escaped.** A back-slash in a path ends up inside the
  JSON text as written (`src/points/export.rs:105`).
  - For example, `assets\test.png` is written as `"assets\test.png"`.
  - A JSON reader takes `\t` in that text as a TAB, so the path reads back
    as a different string.
  - Unescaped text can also make the whole file unreadable. In
    `assets\Users.png`, for example, `\U` is not a valid JSON escape, so
    `serde_json::from_str` fails on the file.
  - Even a stored path that does hold a back-slash is never found by the
    lookup. Only the query is normalised (`src/points/import.rs:84`); the
    stored path is compared as it is. A normalised query holds no
    back-slash (`Import.BackslashStoredNeverFound`).
  - The round trips are stated only for paths without `"`, `\` or control
    characters.
- **Duplicate paths.** Paths are not unique in the file.
  - `export` appends a record even when its path is already present.
  - The single-image lookup returns the FIRST record with the path.
  - The whole-file import keeps the LAST record with the path.
  - `ReadBack.RepeatedPathDiverges` shows the two modes disagreeing on the
    same file.
  - Loading the whole file and writing the map back with `export_all`
    keeps only the last record of each path. The other records are lost
    (`ReadBack.ReloadDropsRepeated`). Only when no path repeats does the
    rewritten file hold the same records, possibly in another order
    (`ReadBack.ReloadKeepsRecords`).

## Model

| member | source | states |
|---|---|---|
| Primitives.AsU32 | src/points/import.rs:109-116 | `as u32` keeps the value when it fits in 32 bits and otherwise agrees with it modulo 2^32 |
| Points.New | src/points/mod.rs:41-46 | `x()`, `y()`, `n` and `point()` of a new point give back the arguments |
| Points.AccessorsDetermine | src/points/mod.rs:53-73 | rebuilding a point from its accessors gives the same point; two points with equal accessors are equal |
| Decimal.Dec | src/points/export.rs:109-114 | the `{}` rendering is a non-empty digit string, with a leading zero only for 0 |
| Decimal.DecRoundTrip | src/points/export.rs:109-114 | reading a rendered number back gives the number |
| Import.NormalizePath | src/points/import.rs:84 | each back-slash of the query becomes `/`; every other character is kept; the length is kept |
| Import.NormalizePathFacts | src/points/import.rs:84 | a normalised query holds no back-slash; normalising is idempotent and leaves a query without back-slashes unchanged |
| Import.BackslashStoredNeverFound | src/points/import.rs:80-86 | a record whose stored path holds a back-slash is never the first match of any normalised query, and the lookup never returns it |
| Import.FirstMatchUnique | src/points/import.rs:80-86 | `find` stops at one record at most |
| Import.FindFirst | src/points/import.rs:77-86 | success gives the first record whose path equals the target, after only string paths that differ; failure means no such record exists |
| Import.GetImageFromJson | src/points/import.rs:73-87 | succeeds exactly when the document is an array holding a first match for the normalised query; the result is that record, and its path is the normalised query |
| Import.DecodePoint | src/points/import.rs:107-122 | succeeds exactly when `x`, `y` and `n` are all unsigned integers; coordinates are cut to 32 bits; `n` is kept |
| Import.DecodePoints | src/points/import.rs:106-123 | one point per element, in order; fails exactly when some element is not a well-formed point (a field missing, or not an unsigned integer) |
| Import.ExtractPoints | src/points/import.rs:102-124 | succeeds exactly when `points` is an array of well-formed points; the length matches and each point carries its element's truncated fields |
| Import.Collect | src/points/import.rs:48-52 | the loop succeeds exactly when every record has a string path and decodable points |
| Import.CollectKeys | src/points/import.rs:48-53 | the map's keys are exactly the records' paths |
| Import.LaterRecordWins | src/points/import.rs:49-52 | a record's path maps to its points when no later record has that path (later inserts overwrite) |
| Import.ImportAll | src/points/import.rs:47-54 | whole-file mode succeeds exactly when the document is an array of decodable records; its keys are the records' paths |
| Import.Import | src/points/import.rs:31-56 | the two modes: with a query, the first match's points, or an error exactly when no decodable first match exists; without one, the whole-file map; an unreadable document is an error |
| Export.PopTwice | src/points/export.rs:34-36 | two pops remove a two-character suffix |
| Export.TerminatedIsJoined | src/points/export.rs:28-36 | items each followed by a separator are the joined items plus one trailing separator |
| Export.Serialize | src/points/export.rs:102-123 | a non-empty list gives the head, the point items joined by `", "`, then `]` and `}`; an empty list gives the `"points":]` text |
| Export.ReplaceNewlines | src/points/export.rs:127 | each line break grows by four characters; the number of line breaks is unchanged |
| Export.ReplacedNewlinesIndented | src/points/export.rs:127 | four spaces follow every line break of the replaced text |
| Export.Indent | src/points/export.rs:125-128 | the text starts with four spaces, grows by four per line, and keeps its line breaks |
| Export.IndentedLines | src/points/export.rs:125-128 | every line of indented text starts with four spaces |
| Export.StripReplaceNewlines | src/points/export.rs:127 | removing the inserted spaces undoes the replacement |
| Export.UnindentIndent | src/points/export.rs:125-128 | indenting loses nothing: it can be undone |
| Export.EnumerationNonEmpty | src/points/export.rs:28 | a key enumeration is empty exactly when the map is |
| Export.RecordsOf | src/points/export.rs:28-31 | one record per enumerated key, holding that key's points |
| Export.SeparatorsPopped | src/points/export.rs:34-36 | the two pops remove the last `",\n"`, or the opening `"[\n"` when there are no records |
| Export.ExportAll | src/points/export.rs:24-44 | a non-empty map gives the document layout of its records in iteration order; an empty map gives `"\n]"` |
| Export.AppendRecordText | src/points/export.rs:67-81 | fails exactly on text shorter than 2; otherwise keeps the text before the last two characters, adds `"[\n"` or `",\n"` by the popped character, then the record and `"\n]"` |
| Export.Export | src/points/export.rs:64-87 | a read error is handed back; otherwise as `AppendRecordText`, with the record's indented text |
| Export.AppendToLayout | src/points/export.rs:67-81 | on a document in the writers' layout, appending gives the layout of the longer list |
| Export.ExportAppendsRecord | src/points/export.rs:64-87 | `export` on a written document gives the document of the records plus the new one, last, even when its path is already present |
| Export.ExportOntoEmpty | src/points/export.rs:70-72 | `export` onto `[]` reopens the array with the record |
| Export.ExportTwiceKeepsBoth | src/points/export.rs:183-202 | two `export`s onto `[]` leave both records, in order |
| JsonText.ParseDecimalText | src/points/export.rs:109-114 | a written coordinate reads back as the same unsigned integer |
| JsonText.ParseStringText | src/points/export.rs:105 | a path written between quotes, needing no escapes, reads back as that string |
| RoundTrip.ParsePointText | src/points/export.rs:109-114 | a written point reads back as the object with fields `x`, `y`, `n`, whatever follows it |
| RoundTrip.ParsePointsArray | src/points/export.rs:106-120 | the joined point items and `]` read back as the array of the points' objects |
| RoundTrip.SerializeLayout | src/points/export.rs:102-123 | `serialize` of a non-empty list is the record layout at indentation zero |
| RoundTrip.IndentLayout | src/points/export.rs:125-128 | indenting a record layout gives four spaces plus the layout at indentation four |
| RoundTrip.ParseSerialized | src/points/export.rs:102-123 | for a writable record, the text `serialize` writes reads back as the record's JSON object |
| RoundTrip.ParseRecordText | src/points/export.rs:29-31 | for a writable record, its indented text reads back as the same object |
| RoundTrip.ParseDocumentText | src/points/export.rs:24-44 | a document of writable records in the writers' layout parses as the array of its records' objects |
| ReadBack.DecodePointValue | src/points/import.rs:107-122 | a point's JSON object decodes to the same point |
| ReadBack.DecodeRecordValue | src/points/import.rs:102-124 | a record's JSON object has the record's path and decodes to its points |
| ReadBack.SerializeRoundTrip | src/points/export.rs:102-123 | `serialize` then read: the record's path and points come back |
| ReadBack.ImportedKeys | src/points/import.rs:48-53 | the reference last-wins map has one key per distinct path |
| ReadBack.ImportedLastWins | src/points/import.rs:49-52 | in the reference map, a path holds the points of its last record |
| ReadBack.CollectRecordValues | src/points/import.rs:48-52 | the whole-file loop over written records gives the reference last-wins map |
| ReadBack.LoadDocument | src/points/export.rs:24-44 | a written document of writable records loads as the array of its records' objects |
| ReadBack.ImportedEnumeration | src/points/export.rs:28-33 | the records of an enumerated map, folded last-wins, give back the map |
| ReadBack.ImportAllValues | src/points/import.rs:47-54 | whole-file import of records' objects gives the reference map |
| ReadBack.ExportAllRoundTrip | src/points/export.rs:24-44 | `export_all` then whole-file `import` gives back the map |
| ReadBack.ImportAllAfterWrite | src/points/import.rs:47-54 | whole-file import of a written document gives the reference map of its records |
| ReadBack.ExportThenImportAll | src/points/export.rs:64-87 | after `export`, whole-file import gives the previous map with the new path set to the new points |
| ReadBack.FindRecordValue | src/points/import.rs:73-87 | the lookup over written records returns the first record whose path is the normalised query |
| ReadBack.LookupValues | src/points/import.rs:42-46 | single-image import over written records gives the first matching record's points |
| ReadBack.LookupAfterWrite | src/points/import.rs:42-46 | single-image import of a written document gives the first matching record's points |
| ReadBack.LookupMissValues | src/points/import.rs:86 | with no record for the normalised query, single-image import fails with the parse message |
| ReadBack.LookupMissAfterWrite | src/points/import.rs:77-86 | the same failure when reading from a written document |
| ReadBack.RepeatedPathLastWins | src/points/import.rs:49-52 | two writable records with one path: the whole-file import keeps the second's points |
| ReadBack.RepeatedPathFirstFound | src/points/import.rs:80-86 | two writable records: the lookup of the first's path gives the first's points |
| ReadBack.ReloadKeepsRecords | src/points/export.rs:24-44 | writable records with distinct paths, loaded whole and written back in any order of the map: the records written are a permutation of those read |
| ReadBack.ReloadPermutation | src/points/import.rs:47-54 | with distinct paths, the records of the whole-file map are a permutation of the records read |
| ReadBack.ReloadDropsRepeated | src/points/import.rs:49-52 | two writable records sharing a path, loaded whole and written back: one record is written, holding the second's points, so the file is not a permutation of what was read |
| ReadBack.RepeatedPathDiverges | src/points/export.rs:77-81 | for writable records, exporting one path twice keeps both records; lookup answers with the first, whole-file import with the second |
| Legacy.FromMint | src/points.rs:33-40 | `_Point::from(Point2)` keeps `x` and `y` |
| Legacy.IntoMint | src/points.rs:42-49 | `Point2::from(_Point)` keeps `x` and `y` |
| Legacy.MintRoundTrip | src/points.rs:33-49 | the two conversions are inverse to each other |
| Legacy.FromPoint | src/points.rs:57-68 | the snapshot's `x()`, `y()` and `n` equal those of the decoded point |
| Legacy.ExtractPoints | src/points.rs:158-180 | the snapshot's `extract_points`: the same success condition, length and truncated fields as the current one |
| Legacy.Import | src/points.rs:90-111 | the snapshot's `import`: the same two modes, outcomes and errors, with points in the snapshot's form |
| Fixtures.ThreePointItems | src/points/export.rs:142-152 | the three test points serialise to the items the test expects |
| ExportFixtures.SerializeExample | src/points/export.rs:139-154 | `serialize("test.png", …)` is the expected text |
| ExportFixtures.ThreePointRecordText | src/points/export.rs:175-178 | the test record's indented text is the expected block |
| ExportFixtures.ExportAllExample | src/points/export.rs:156-179 | `export_all` of the one-image test map is the expected document |
| ExportFixtures.ExportTwiceExample | src/points/export.rs:181-202 | two `export`s of the test record onto `[]` give the expected two-record document |
| ImportFixtures.FixtureLookup | src/points/import.rs:134-161 | the fixture lookup of `assets/test.png` gives the four points whose coordinates its unit test asserts |
| ImportFixtures.FixtureBackslashLookup | src/points/import.rs:84 | the query `assets\test.png` finds the same record |
| ImportFixtures.FixtureAll | src/points/import.rs:163-190 | whole-file import of the fixture gives one image with the four points |
| ImportFixtures.FixtureMissing | src/points/import.rs:192-196 | looking up an absent path fails with the parse message |
| ImportFixtures.LegacyFixtureLookup | src/points.rs:213-232 | the snapshot's lookup of the fixture gives the four points its unit test asserts |
| ImportFixtures.LegacyFixtureAll | src/points.rs:234-254 | the snapshot's whole-file import of the fixture gives one image with the four points |

## Left out

- File I/O:
  - Reading `.cazan/build/assets.json` is an input. `import` receives the
    parsed value, or `None` when reading or parsing failed; `export`
    receives the read result.
  - What the writers would write is their result.
  - Write failures (`src/points/export.rs:40-41`, `83-84`) are not
    modelled.
- The `#[cfg(test)]` switch of the file name (`src/points/import.rs:34-37`)
  is not modelled, because the file name is not modelled.
- `serde_json::from_str` is not modelled in general. `import` takes the
  parsed value. The reader model `JsonText` covers only the writers'
  subset:
  - no string escapes;
  - no negative numbers, fractions or exponents;
  - numbers above `u64` become a valueless `Float`.
- `Either` is modelled by the `Loaded`/`LegacyLoaded` datatypes.
- `HashMap` is modelled by a Dafny `map`:
  - the iteration order of `export_all` is an explicit `order` parameter,
    required to list every key once;
  - `Export.ExportAll` is stated for every such order.
- `usize` is taken to be 64 bits wide.
- `mint::Point2<u32>` is modelled as a plain pair.
- `serialize` returns `Result` in the source but never fails, so it is a
  plain function here.
- `src/points/tests.rs` is not part of this model. It repeats the import
  tests of `src/points.rs`.
- Legacy.Import: the snapshot's `import`, `get_image_from_json` and
  `extract_points` (`src/points.rs:90-180`) follow the same decoding
  logic as `src/points/import.rs`, except for two things. The snapshot
  always reads `.cazan/build/assets.json` (`src/points.rs:92`), with no
  test-only file name. It also builds its points from the private
  `_Point` (`src/points.rs:164`), not from `mint::Point2`. The file name
  is not modelled, so the model reuses the shared decoder and converts
  its points into the snapshot's form.
- ReadBack.SerializeRoundTrip: the round trips require a writable record.
  A writable record has a path with no `"`, no `\` and no control
  character, and a non-empty point list.
  - `serialize` writes the path with `format!("{}")`
    (`src/points/export.rs:105`), so it is not escaped. The real reader
    either rejects such text or reads back a different path.
  - An empty point list is written as `"points":]`, which does not read
    back.
  - The reader model has no escapes, so the model does not state what a
    path with `\` reads back as.
- ReadBack.ExportAllRoundTrip: also requires a non-empty map, because the
  empty map is written as `"\n]"`, which does not read back.
- ReadBack.LookupAfterWrite, ReadBack.ImportAllAfterWrite,
  ReadBack.ExportThenImportAll, ReadBack.LookupMissAfterWrite,
  ReadBack.LoadDocument, ReadBack.RepeatedPathLastWins,
  ReadBack.RepeatedPathFirstFound, ReadBack.RepeatedPathDiverges,
  ReadBack.ReloadKeepsRecords, ReadBack.ReloadDropsRepeated,
  RoundTrip.ParseSerialized, RoundTrip.ParseRecordText and
  RoundTrip.ParseDocumentText are stated for writable records only, for
  the same reason.
- ReadBack.ReloadKeepsRecords: also requires distinct paths and at least
  one record. With a repeated path the rewritten file loses records
  (`ReadBack.ReloadDropsRepeated`). With no records, `export_all` writes
  `"\n]"`.
- Import.Import: when reading or parsing the file fails, `Result::expect`
  (`src/points/import.rs:39-40`) appends the I/O or parse error's debug
  text to the message it panics with. The model's error carries only the
  message itself.
- ImportFixtures.FixtureJson: the import tests' fixture file is given as
  the value the JSON reader makes of it. That its text
  (`src/points/import.rs:137-141`) parses to this value is not proved,
  because the text uses a layout other than the writers'.
- Some library behaviour is taken as given, and the model's definitions
  only write it down:
  - serde's indexing gives `Null` for a missing key or a non-object
    (`Json.Index`);
  - `String::pop` removes the last character and does nothing on empty
    text (`Export.Pop`);
  - `as usize` is the identity on a 64-bit target (`Primitives.AsUsize`);
  - `serde_json::from_str` reads the writers' subset of JSON
    (`ReadBack.Load`), as the reader model `JsonText` defines it.
  What the model proves about these definitions is in the lemmas that
  use them, such as `Export.PopTwice` and `ReadBack.LoadDocument`.
- ReadBack.Load: it models `serde_json::from_str` only on the writers'
  subset. Its failure on other valid JSON is not the real parser's
  behaviour.

=== FILE: decimal.dfy ===
/** Decimal rendering of unsigned integers (Rust's `{}` formatting of
    `u32` and `usize`) and the digit-string value used to read it back. */
module Decimal {

  predicate IsDigit(c: char) {
    '0' <= c <= '9'
  }

  predicate AllDigits(s: string) {
    forall i :: 0 <= i < |s| ==> IsDigit(s[i])
  }

  function DigitChar(d: nat): (c: char)
    requires d < 10
    ensures IsDigit(c)
  {
    ('0' as int + d) as char
  }

  function DigitValue(c: char): (d: nat)
    requires IsDigit(c)
    ensures d < 10
  {
    c as int - '0' as int
  }

  /** The decimal text of `n`: at least one digit, and a leading `0` only
      for zero itself. */
  function Dec(n: nat): (s: string)
    ensures |s| > 0 && AllDigits(s)
    ensures s[0] == '0' <==> n == 0
    ensures n == 0 ==> s == "0"
  {
    if n < 10 then [DigitChar(n)] else Dec(n / 10) + [DigitChar(n % 10)]
  }

  /** The number a string of decimal digits denotes. */
  function DigitsValue(s: string): nat
    requires AllDigits(s)
  {
    if |s| == 0 then 0 else DigitsValue(s[..|s| - 1]) * 10 + DigitValue(s[|s| - 1])
  }

  /** Reading back the rendered digits gives the number again. */
  lemma {:induction false} DecRoundTrip(n: nat)
    ensures DigitsValue(Dec(n)) == n
  {
    if n >= 10 {
      DecRoundTrip(n / 10);
      var s := Dec(n);
      assert s[..|s| - 1] == Dec(n / 10);
    }
  }
}

=== FILE: export.dfy ===
/** The encoder of src/points/export.rs, as exact text building:
    `serialize`, `add_4_spaces_before_each_line`, `export_all` and the
    append-to-existing-text `export`. File writes are left out; each
    operation yields the text it would write. */
module Export {
  import opened Results
  import opened Primitives
  import opened Points
  import opened Decimal

  /** The message `unwrap` panics with on `None`. */
  const UnwrapNone: string := "called `Option::unwrap()` on a `None` value"

  /** One image record of the document: a path and its points. */
  datatype Record = Record(path: string, points: seq<Point>)

  /** `String::pop` whose popped character is discarded: a no-op on the
      empty string. */
  function Pop(s: string): (r: string)
    ensures |s| > 0 ==> r == s[..|s| - 1]
    ensures |s| == 0 ==> r == s
  {
    if |s| == 0 then s else s[..|s| - 1]
  }

  /** The items of `xs` with `sep` between neighbours. */
  function Join(sep: string, xs: seq<string>): string {
    if |xs| == 0 then ""
    else if |xs| == 1 then xs[0]
    else xs[0] + sep + Join(sep, xs[1..])
  }

  /** The items of `xs`, each followed by `sep`: what a push-in-a-loop
      leaves before the trailing separator is popped. */
  function Terminated(sep: string, xs: seq<string>): string {
    if |xs| == 0 then "" else xs[0] + sep + Terminated(sep, xs[1..])
  }

  lemma {:induction false} TerminatedIsJoined(sep: string, xs: seq<string>)
    requires |xs| > 0
    ensures Terminated(sep, xs) == Join(sep, xs) + sep
  {
    if |xs| > 1 {
      TerminatedIsJoined(sep, xs[1..]);
    }
  }

  /** Appending an item to a non-empty list appends one separator and the
      item to its joined text. */
  lemma {:induction false} JoinSnoc(sep: string, xs: seq<string>, y: string)
    requires |xs| > 0
    ensures Join(sep, xs + [y]) == Join(sep, xs) + sep + y
  {
    if |xs| == 1 {
      assert xs + [y] == [xs[0], y];
    } else {
      assert (xs + [y])[1..] == xs[1..] + [y];
      JoinSnoc(sep, xs[1..], y);
    }
  }

  /** Dropping the last two characters of `s + t`, where `|t| == 2`. */
  lemma PopTwice(s: string, t: string)
    requires |t| == 2
    ensures Pop(Pop(s + t)) == s
  {
    assert (s + t)[..|s| + 1] == s + t[..1];
    assert (s + t[..1])[..|s|] == s;
  }

  /** One point as `serialize` formats it. */
  function PointText(p: Point): string {
    "{ \"x\": " + Dec(p.X()) + ", \"y\": " + Dec(p.Y()) + ", \"n\": " + Dec(p.n) + " }"
  }

  function PointTexts(pts: seq<Point>): (r: seq<string>)
    ensures |r| == |pts|
    ensures forall i :: 0 <= i < |pts| ==> r[i] == PointText(pts[i])
  {
    if |pts| == 0 then [] else [PointText(pts[0])] + PointTexts(pts[1..])
  }

  /** What `serialize` has pushed before the first point. */
  function RecordHead(path: string): string {
    "{\n    \"path\": \"" + path + "\",\n" + "    \"points\": ["
  }

  /** `serialize`, as written: every point followed by `", "`, then two
      pops meant for the last separator. With no points the pops eat the
      `" ["` of the head instead. The path goes in unescaped. */
  function Serialize(path: string, pts: seq<Point>): (r: string)
    ensures |pts| > 0 ==> r == RecordHead(path) + Join(", ", PointTexts(pts)) + "]\n}"
    ensures |pts| == 0 ==> r == "{\n    \"path\": \"" + path + "\",\n    \"points\":]\n}"
  {
    var body := RecordHead(path) + Terminated(", ", PointTexts(pts));
    if |pts| > 0 then
      TerminatedIsJoined(", ", PointTexts(pts));
      assert body == (RecordHead(path) + Join(", ", PointTexts(pts))) + ", ";
      PopTwice(RecordHead(path) + Join(", ", PointTexts(pts)), ", ");
      Pop(Pop(body)) + "]\n}"
    else
      assert RecordHead(path) == ("{\n    \"path\": \"" + path + "\",\n    \"points\":") + " [";
      PopTwice("{\n    \"path\": \"" + path + "\",\n    \"points\":", " [");
      Pop(Pop(body)) + "]\n}"
  }

  /** The line break at `i` is followed by four spaces. */
  predicate IndentedAfter(s: string, i: int) {
    0 <= i && i + 4 < |s| && s[i + 1..i + 5] == "    "
  }

  /** `json.replace('\n', "\n    ")`. */
  function ReplaceNewlines(s: string): (r: string)
    ensures |r| == |s| + 4 * LineBreaks(s)
    ensures LineBreaks(r) == LineBreaks(s)
  {
    if |s| == 0 then ""
    else
      assert s == [s[0]] + s[1..];
      LineBreaksConcat([s[0]], ReplaceNewlines(s[1..]));
      LineBreaksConcat("\n    ", ReplaceNewlines(s[1..]));
      if s[0] == '\n' then "\n    " + ReplaceNewlines(s[1..])
      else [s[0]] + ReplaceNewlines(s[1..])
  }

  lemma {:induction false} ReplacedNewlinesIndented(s: string)
    ensures forall i :: 0 <= i < |ReplaceNewlines(s)| && ReplaceNewlines(s)[i] == '\n' ==>
      IndentedAfter(ReplaceNewlines(s), i)
  {
    if |s| > 0 {
      ReplacedNewlinesIndented(s[1..]);
      var rest := ReplaceNewlines(s[1..]);
      var r := ReplaceNewlines(s);
      var h := if s[0] == '\n' then "\n    " else [s[0]];
      assert r == h + rest;
      forall i | 0 <= i < |r| && r[i] == '\n'
        ensures IndentedAfter(r, i)
      {
        if i >= |h| {
          assert r[i] == rest[i - |h|];
          assert IndentedAfter(rest, i - |h|);
          assert r[i + 1..i + 5] == rest[i - |h| + 1..i - |h| + 5];
        } else {
          assert i == 0 && s[0] == '\n';
        }
      }
    }
  }

  /** `add_4_spaces_before_each_line`: four spaces in front, four more
      after every line break, and no line break added or lost. */
  function Indent(s: string): (r: string)
    ensures |r| == |s| + 4 * (LineBreaks(s) + 1)
    ensures r[..4] == "    "
    ensures LineBreaks(r) == LineBreaks(s)
  {
    LineBreaksConcat("    ", ReplaceNewlines(s));
    "    " + ReplaceNewlines(s)
  }

  /** Every line of an indented text starts with four spaces. */
  lemma IndentedLines(s: string)
    ensures forall i :: 0 <= i < |Indent(s)| && Indent(s)[i] == '\n' ==> IndentedAfter(Indent(s), i)
  {
    var rest := ReplaceNewlines(s);
    var r := Indent(s);
    assert r == "    " + rest;
    assert forall k :: 0 <= k < 4 ==> r[k] == ' ';
    ReplacedNewlinesIndented(s);
    forall i | 0 <= i < |r| && r[i] == '\n'
      ensures IndentedAfter(r, i)
    {
      var j := i - 4;
      assert r[i] == rest[j];
      assert IndentedAfter(rest, j);
      assert r[i + 1..i + 5] == rest[j + 1..j + 5];
    }
  }

  /** The number of line breaks in `s`. */
  function LineBreaks(s: string): nat {
    if |s| == 0 then 0 else (if s[0] == '\n' then 1 else 0) + LineBreaks(s[1..])
  }

  lemma {:induction false} LineBreaksConcat(a: string, b: string)
    ensures LineBreaks(a + b) == LineBreaks(a) + LineBreaks(b)
  {
    if |a| > 0 {
      assert (a + b)[1..] == a[1..] + b;
      LineBreaksConcat(a[1..], b);
    } else {
      assert a + b == b;
    }
  }

  /** Removes the four spaces that follow each line break. */
  function StripAfterNewlines(s: string): string {
    if |s| == 0 then ""
    else if s[0] == '\n' && |s| >= 5 && s[1..5] == "    " then "\n" + StripAfterNewlines(s[5..])
    else [s[0]] + StripAfterNewlines(s[1..])
  }

  /** The inverse of `Indent` on its image. */
  function Unindent(s: string): string {
    if |s| >= 4 && s[..4] == "    " then StripAfterNewlines(s[4..]) else s
  }

  lemma {:induction false} StripReplaceNewlines(s: string)
    ensures StripAfterNewlines(ReplaceNewlines(s)) == s
  {
    if |s| > 0 {
      StripReplaceNewlines(s[1..]);
      var rest := ReplaceNewlines(s[1..]);
      if s[0] == '\n' {
        var r := "\n    " + rest;
        assert r[1..5] == "    " && r[5..] == rest;
      } else {
        var r := [s[0]] + rest;
        assert r[1..] == rest;
      }
    }
  }

  /** Indenting loses nothing: the original text can be recovered. */
  lemma UnindentIndent(s: string)
    ensures Unindent(Indent(s)) == s
  {
    StripReplaceNewlines(s);
    assert Indent(s)[4..] == ReplaceNewlines(s);
  }

  /** A record as it appears inside the document array. */
  function RecordText(rec: Record): string {
    Indent(Serialize(rec.path, rec.points))
  }

  function RecordTexts(recs: seq<Record>): (r: seq<string>)
    ensures |r| == |recs|
    ensures forall i :: 0 <= i < |recs| ==> r[i] == RecordText(recs[i])
  {
    if |recs| == 0 then [] else [RecordText(recs[0])] + RecordTexts(recs[1..])
  }

  /** The document layout both writers produce: `[]` when empty, otherwise
      the indented records, one after another, separated by `",\n"`,
      between `"[\n"` and `"\n]"`. */
  function Document(recs: seq<Record>): string {
    Layout(RecordTexts(recs))
  }

  function Layout(texts: seq<string>): string {
    if |texts| == 0 then "[]" else "[\n" + Join(",\n", texts) + "\n]"
  }

  /** `order` lists every key of `images` exactly once: the (unspecified)
      iteration order of the source's `HashMap`. */
  predicate Enumerates(order: seq<string>, images: map<string, seq<Point>>) {
    && (forall i, j :: 0 <= i < j < |order| ==> order[i] != order[j])
    && (forall p :: p in order ==> p in images)
    && (forall p :: p in images ==> p in order)
  }

  /** An enumeration is empty exactly when the map is. */
  lemma EnumerationNonEmpty(order: seq<string>, images: map<string, seq<Point>>)
    requires Enumerates(order, images)
    ensures |order| > 0 <==> |images| > 0
  {
    if |order| > 0 {
      assert order[0] in images;
    }
  }

  /** The map's entries as records, in the order `order` visits them. */
  function RecordsOf(images: map<string, seq<Point>>, order: seq<string>): (r: seq<Record>)
    requires forall p :: p in order ==> p in images
    ensures |r| == |order|
    ensures forall i :: 0 <= i < |order| ==> r[i] == Record(order[i], images[order[i]])
  {
    if |order| == 0 then [] else [Record(order[0], images[order[0]])] + RecordsOf(images, order[1..])
  }

  /** `export_all`, as written: each record followed by `",\n"`, then two
      pops meant for the last separator. With an empty map they eat the
      opening `"[\n"` instead, leaving `"\n]"`. */
  function ExportAll(images: map<string, seq<Point>>, order: seq<string>): (r: string)
    requires Enumerates(order, images)
    ensures |images| > 0 ==> r == Document(RecordsOf(images, order))
    ensures |images| == 0 ==> r == "\n]"
  {
    assert Document(RecordsOf(images, order)) == Layout(RecordTexts(RecordsOf(images, order)));
    var texts := RecordTexts(RecordsOf(images, order));
    EnumerationNonEmpty(order, images);
    SeparatorsPopped(texts);
    Pop(Pop("[\n" + Terminated(",\n", texts))) + "\n]"
  }

  /** The pops of `export_all` remove the last `",\n"`, or the opening
      `"[\n"` when there is no record. */
  lemma SeparatorsPopped(texts: seq<string>)
    ensures |texts| > 0 ==> Pop(Pop("[\n" + Terminated(",\n", texts))) == "[\n" + Join(",\n", texts)
    ensures |texts| == 0 ==> Pop(Pop("[\n" + Terminated(",\n", texts))) == ""
  {
    if |texts| > 0 {
      TerminatedIsJoined(",\n", texts);
      assert "[\n" + Terminated(",\n", texts) == ("[\n" + Join(",\n", texts)) + ",\n";
      PopTwice("[\n" + Join(",\n", texts), ",\n");
    } else {
      assert "[\n" + Terminated(",\n", texts) == [] + "[\n";
      PopTwice([], "[\n");
    }
  }

  /** `export`, as written. `read` is the result of reading the document:
      a read error is handed back as it is. The last character is popped
      (a no-op on empty text), then a second one is popped and unwrapped,
      which panics on text shorter than two characters. If that second
      character was `[` the array was empty and is reopened; otherwise a
      `",\n"` separator follows the previous record. */
  function Export(read: Result<string>, path: string, pts: seq<Point>): (r: Result<string>)
    ensures read.Err? ==> r == read
    ensures read.Ok? ==> (r.Err? <==> |read.value| < 2)
    ensures r.Err? && read.Ok? ==> r.msg == UnwrapNone
    ensures r.Ok? ==>
      var old_ := read.value;
      var k := |old_| - 2;
      var rec := RecordText(Record(path, pts));
      && |r.value| == k + 2 + |rec| + 2
      && r.value[..k] == old_[..k]
      && r.value[k..k + 2] == (if old_[k] == '[' then "[\n" else ",\n")
      && r.value[k + 2..] == rec + "\n]"
  {
    match read
    case Err(e) => Err(e)
    case Ok(content) => AppendRecordText(content, RecordText(Record(path, pts)))
  }

  /** The text surgery of `export`, for an already formatted record `rec`. */
  function AppendRecordText(content: string, rec: string): (r: Result<string>)
    ensures r.Err? <==> |content| < 2
    ensures r.Err? ==> r.msg == UnwrapNone
    ensures r.Ok? ==>
      var k := |content| - 2;
      && |r.value| == k + 2 + |rec| + 2
      && r.value[..k] == content[..k]
      && r.value[k..k + 2] == (if content[k] == '[' then "[\n" else ",\n")
      && r.value[k + 2..] == rec + "\n]"
  {
    var json := Pop(content);
    if |json| == 0 then Err(UnwrapNone)
    else
      var last := json[|json| - 1];
      var json' := json[..|json| - 1];
      var sep := if last == '[' then "[\n" else ",\n";
      var r := json' + sep + rec + "\n]";
      assert json' == content[..|content| - 2] && last == content[|content| - 2];
      assert r[..|json'|] == json';
      assert r[|json'|..|json'| + 2] == sep;
      assert r[|json'| + 2..] == rec + "\n]";
      Ok(r)
  }

  /** What `export` does to a document in the writers' layout, on the
      record texts alone. */
  lemma {:induction false} AppendToLayout(texts: seq<string>, t: string)
    ensures AppendRecordText(Layout(texts), t) == Ok(Layout(texts + [t]))
  {
    var c := Layout(texts);
    var k := |c| - 2;
    var r := AppendRecordText(c, t);
    var sep := if c[k] == '[' then "[\n" else ",\n";
    Assemble(r.value, c[..k], sep, t + "\n]");
    if |texts| == 0 {
      assert c[..k] == [] && c[k] == '[';
      assert Join(",\n", texts + [t]) == t;
    } else {
      var j := Join(",\n", texts);
      assert c == ("[\n" + j) + "\n]";
      assert c[..k] == "[\n" + j;
      assert c[k] == '\n';
      JoinSnoc(",\n", texts, t);
      assert Layout(texts + [t]) == "[\n" + (j + ",\n" + t) + "\n]";
      Reassociate("[\n", j, ",\n", t, "\n]");
    }
  }

  /** Appending to a document in the writers' layout gives the layout of
      the longer record list: earlier records are kept as they are and the
      new one goes last, whether or not its path is already present. */
  lemma ExportAppendsRecord(recs: seq<Record>, rec: Record)
    ensures Export(Ok(Document(recs)), rec.path, rec.points) == Ok(Document(recs + [rec]))
  {
    RecordTextsSnoc(recs, rec);
    AppendToLayout(RecordTexts(recs), RecordText(rec));
  }

  lemma RecordTextsSnoc(recs: seq<Record>, rec: Record)
    ensures RecordTexts(recs + [rec]) == RecordTexts(recs) + [RecordText(rec)]
  {
    var l, r := RecordTexts(recs + [rec]), RecordTexts(recs);
    forall i | 0 <= i < |recs| ensures l[i] == r[i] {
      assert (recs + [rec])[i] == recs[i];
    }
    assert l[|recs|] == RecordText(rec) by {
      assert (recs + [rec])[|recs|] == rec;
    }
    assert l == r + [l[|recs|]];
  }

  /** `export` onto the empty document `[]` opens it with the record. */
  lemma ExportOntoEmpty(rec: Record)
    ensures Export(Ok("[]"), rec.path, rec.points) == Ok("[\n" + RecordText(rec) + "\n]")
    ensures Export(Ok("[]"), rec.path, rec.points) == Ok(Document([rec]))
  {
    ExportAppendsRecord([], rec);
    assert Document([]) == "[]";
    assert [] + [rec] == [rec];
    assert Join(",\n", RecordTexts([rec])) == RecordText(rec);
  }

  /** Exporting two records onto an empty document leaves both, in order,
      even when they share a path: nothing is merged. */
  lemma ExportTwiceKeepsBoth(a: Record, b: Record)
    ensures Export(Export(Ok("[]"), a.path, a.points), b.path, b.points) == Ok(Document([a, b]))
  {
    assert Export(Ok("[]"), a.path, a.points) == Ok(Document([a])) by {
      ExportOntoEmpty(a);
    }
    assert Export(Ok(Document([a])), b.path, b.points) == Ok(Document([a] + [b])) by {
      ExportAppendsRecord([a], b);
    }
    assert [a] + [b] == [a, b] by {
      SingletonsConcat(a, b);
    }
  }

  lemma SingletonsConcat<T>(x: T, y: T)
    ensures [x] + [y] == [x, y]
  {
  }

  // Helper lemmas: regrouping of string concatenation.

  lemma Reassociate(a: string, b: string, c: string, d: string, e: string)
    ensures (a + b) + c + (d + e) == a + (b + c + d) + e
  {
  }

  lemma Assemble(r: string, a: string, b: string, c: string)
    requires |r| == |a| + |b| + |c|
    requires r[..|a|] == a && r[|a|..|a| + |b|] == b && r[|a| + |b|..] == c
    ensures r == a + b + c
  {
  }
}

=== FILE: export_fixtures.dfy ===
/** The expectations of the export tests: the whole text each writer
    leaves in the file. */
module ExportFixtures {
  import opened Results
  import opened Export
  import opened RoundTrip
  import opened Points
  import opened Fixtures

  /** The text `serialize` writes for a non-empty point list, with the
      joined items named. */
  function SerializedRecord(path: string, items: string): string {
    "{\n    \"path\": \"" + path + "\",\n    \"points\": [" + items + "]\n}"
  }

  lemma SerializedLayout(p: string, i: string)
    ensures RecordLayout("", p, i) == SerializedRecord(p, i)
  {
    var b, nl, c, d, e, f, g := "{", "\n" + "", "    \"path\": \"", "\",", "    \"points\": [", "]", "}";
    assert RecordLayout("", p, i) == b + nl + c + p + d + nl + e + i + f + nl + g;
    SerializedPieces();
    LayoutPieces(b, nl, c, p, d, e, i, f, g);
  }

  lemma SerializedPieces()
    ensures "{" + ("\n" + "") + "    \"path\": \"" == "{\n    \"path\": \""
    ensures "\"," + ("\n" + "") + "    \"points\": [" == "\",\n    \"points\": ["
    ensures "]" + ("\n" + "") + "}" == "]\n}"
  {
  }

  lemma LayoutPieces(b: string, nl: string, c: string, p: string, d: string, e: string, i: string, f: string, g: string)
    ensures b + nl + c + p + d + nl + e + i + f + nl + g == (b + nl + c) + p + (d + nl + e) + i + (f + nl + g)
  {
  }

  lemma SerializeExample()
    ensures Serialize("test.png", ThreePoints()) == SerializedRecord("test.png", ThreeItems())
  {
    ThreePointItems();
    SerializeLayout("test.png", ThreePoints());
    SerializedLayout("test.png", ThreeItems());
  }

  /** A record rendered for a document: its `serialize` layout with every
      line pushed in by four spaces. */
  function IndentedRecord(path: string, items: string): string {
    "    {\n        \"path\": \"" + path + "\",\n        \"points\": [" + items + "]\n    }"
  }

  lemma RecordTextIndented(rec: Record, items: string)
    requires Writable(rec) && Join(", ", PointTexts(rec.points)) == items
    ensures RecordText(rec) == IndentedRecord(rec.path, items)
  {
    RecordTextLayout(rec);
    IndentedLayout(rec.path, items);
  }

  lemma IndentedLayout(p: string, i: string)
    ensures "    " + RecordLayout("    ", p, i) == IndentedRecord(p, i)
  {
    var a, b, nl, c, d, e, f, g := "    ", "{", "\n" + "    ", "    \"path\": \"", "\",", "    \"points\": [", "]", "}";
    assert RecordLayout("    ", p, i) == b + nl + c + p + d + nl + e + i + f + nl + g;
    IndentedLiterals();
    IndentedPieces(a, b, nl, c, p, d, e, i, f, g);
  }

  lemma IndentedLiterals()
    ensures "    " + "{" + ("\n" + "    ") + "    \"path\": \"" == "    {\n        \"path\": \""
    ensures "\"," + ("\n" + "    ") + "    \"points\": [" == "\",\n        \"points\": ["
    ensures "]" + ("\n" + "    ") + "}" == "]\n    }"
  {
  }

  lemma IndentedPieces(a: string, b: string, nl: string, c: string, p: string, d: string, e: string, i: string, f: string, g: string)
    ensures a + (b + nl + c + p + d + nl + e + i + f + nl + g) == (a + b + nl + c) + p + (d + nl + e) + i + (f + nl + g)
  {
  }

  /** The record `test.png` with `ThreePoints`, as the tests spell it. */
  function IndentedThreePoints(): string {
    IndentedRecord("test.png", ThreeItems())
  }

  lemma ThreePointRecordText()
    ensures RecordText(Record("test.png", ThreePoints())) == IndentedThreePoints()
  {
    var rec := Record("test.png", ThreePoints());
    assert Writable(rec);
    ThreePointItems();
    RecordTextIndented(rec, ThreeItems());
  }

  lemma SingleEnumerated(path: string, pts: seq<Point>)
    ensures Enumerates([path], map[path := pts])
  {
  }

  /** `export_all` of a map with one image. */
  lemma ExportAllSingle(path: string, pts: seq<Point>)
    ensures Enumerates([path], map[path := pts])
    ensures ExportAll(map[path := pts], [path]) == "[\n" + RecordText(Record(path, pts)) + "\n]"
  {
    var m := map[path := pts];
    assert |m| == 1 by {
      assert m.Keys == {path};
    }
    var ts := RecordTexts(RecordsOf(m, [path]));
    assert ts == [RecordText(Record(path, pts))];
    LayoutOne(ts[0]);
  }

  lemma LayoutOne(a: string)
    ensures Layout([a]) == "[\n" + a + "\n]"
  {
  }

  /** `export` of the same record twice onto the empty document `[]`: two
      records, not one. */
  lemma ExportTwiceExample()
    ensures Export.Export(Export.Export(Ok("[]"), "test.png", ThreePoints()), "test.png", ThreePoints()) ==
      Ok("[\n" + IndentedThreePoints() + ",\n" + IndentedThreePoints() + "\n]")
  {
    var rec := Record("test.png", ThreePoints());
    ExportTwiceKeepsBoth(rec, rec);
    ThreePointRecordText();
    PairDocument(rec, rec);
  }

  lemma PairDocument(a: Record, b: Record)
    ensures Document([a, b]) == "[\n" + RecordText(a) + ",\n" + RecordText(b) + "\n]"
  {
    var ts := RecordTexts([a, b]);
    assert ts == [RecordText(a), RecordText(b)];
    LayoutTwo(RecordText(a), RecordText(b));
  }

  lemma LayoutTwo(a: string, b: string)
    ensures Layout([a, b]) == "[\n" + a + ",\n" + b + "\n]"
  {
    assert [a, b][1..] == [b];
    assert Join(",\n", [a, b]) == a + ",\n" + b;
  }

  /** `export_all` of the map `{"test.png": ThreePoints}`. */
  lemma ExportAllExample()
    ensures Enumerates(["test.png"], map["test.png" := ThreePoints()])
    ensures ExportAll(map["test.png" := ThreePoints()], ["test.png"]) == "[\n" + IndentedThreePoints() + "\n]"
  {
    assert Enumerates(["test.png"], map["test.png" := ThreePoints()]) by {
      SingleEnumerated("test.png", ThreePoints());
    }
    assert ExportAll(map["test.png" := ThreePoints()], ["test.png"]) == "[\n" + RecordText(Record("test.png", ThreePoints())) + "\n]" by {
      ExportAllThreePoints();
    }
    assert RecordText(Record("test.png", ThreePoints())) == IndentedThreePoints() by {
      ThreePointRecordText();
    }
  }

  lemma ExportAllThreePoints()
    requires Enumerates(["test.png"], map["test.png" := ThreePoints()])
    ensures ExportAll(map["test.png" := ThreePoints()], ["test.png"]) == "[\n" + RecordText(Record("test.png", ThreePoints())) + "\n]"
  {
    ExportAllSingle("test.png", ThreePoints());
  }
}

=== FILE: fixtures.dfy ===
/** The expectations of the source's unit tests, restated as lemmas about
    the model. Expected texts are written as the concatenation of their
    lines' pieces. */
module Fixtures {
  import opened Primitives
  import opened Points
  import opened Decimal
  import opened Export

  function ThreePoints(): seq<Point> {
    [New(0, 0, 0), New(1, 1, 1), New(2, 2, 2)]
  }

  /** The text of a point whose three fields all print as `d`. */
  function DiagonalItem(d: string): string {
    "{ \"x\": " + d + ", \"y\": " + d + ", \"n\": " + d + " }"
  }

  /** The serialised items of `ThreePoints`, as the tests spell them. */
  function ThreeItems(): string {
    DiagonalItem("0") + ", " + DiagonalItem("1") + ", " + DiagonalItem("2")
  }

  lemma DiagonalPoint(k: u32)
    ensures PointText(New(k, k, k)) == DiagonalItem(Dec(k))
  {
  }

  lemma SmallDecimals()
    ensures Dec(0) == "0" && Dec(1) == "1" && Dec(2) == "2"
  {
    assert DigitChar(1) == '1' && DigitChar(2) == '2';
  }

  lemma JoinThree(sep: string, a: string, b: string, c: string)
    ensures Join(sep, [a, b, c]) == a + sep + b + sep + c
  {
    assert [a, b, c][1..] == [b, c];
    assert [b, c][1..] == [c];
    assert Join(sep, [b, c]) == b + sep + c;
    assert a + sep + (b + sep + c) == a + sep + b + sep + c;
  }

  /** The serialised items of `ThreePoints`, joined by `", "`. */
  lemma ThreePointItems()
    ensures Join(", ", PointTexts(ThreePoints())) == ThreeItems()
  {
    var ts := PointTexts(ThreePoints());
    SmallDecimals();
    DiagonalPoint(0);
    DiagonalPoint(1);
    DiagonalPoint(2);
    assert ts == [DiagonalItem("0"), DiagonalItem("1"), DiagonalItem("2")];
    JoinThree(", ", DiagonalItem("0"), DiagonalItem("1"), DiagonalItem("2"));
  }
}

=== FILE: import.dfy ===
/** The decoder of src/points/import.rs: `Point::import` with its two
    modes, `get_image_from_json` and `extract_points`, over an already
    parsed document. Every `expect` becomes an `Err` carrying the message
    the source panics with. */
module Import {
  import opened Results
  import opened Primitives
  import opened Points
  import opened Json

  const ParseError: string := "Failed to parse .cazan/build/assets.json file"

  /** What `import` hands back: the points of one image (`Either::Left`) or
      every image's points by path (`Either::Right`). */
  datatype Loaded =
    | ImagePoints(points: seq<Point>)
    | AllImages(images: map<string, seq<Point>>)

  /** `image_path.replace('\\', "/")`. */
  function NormalizePath(q: string): (r: string)
    ensures |r| == |q|
    ensures forall i :: 0 <= i < |q| ==> r[i] == (if q[i] == '\\' then '/' else q[i])
  {
    if |q| == 0 then [] else [if q[0] == '\\' then '/' else q[0]] + NormalizePath(q[1..])
  }

  /** A normalised query holds no back-slash, so normalising is idempotent
      and leaves back-slash-free queries alone. */
  lemma NormalizePathFacts(q: string)
    ensures '\\' !in NormalizePath(q)
    ensures NormalizePath(NormalizePath(q)) == NormalizePath(q)
    ensures '\\' !in q ==> NormalizePath(q) == q
  {
  }

  /** `image["path"].as_str()`. */
  function PathOf(image: Value): Option<string> {
    AsStr(Index(image, "path"))
  }

  /** Record `k` is the one `find` stops at: its path is `target`, and every
      record before it has a string path different from `target` (a
      non-string path before it would have panicked first). */
  ghost predicate IsFirstMatch(images: seq<Value>, target: string, k: int) {
    && 0 <= k < |images|
    && PathOf(images[k]) == Some(target)
    && forall j :: 0 <= j < k ==> PathOf(images[j]).Some? && PathOf(images[j]).value != target
  }

  /** Only the query is normalised: a stored path holding a back-slash is
      never the record the lookup stops at, whatever the query. */
  lemma BackslashStoredNeverFound(images: seq<Value>, query: string, k: int)
    requires 0 <= k < |images|
    requires PathOf(images[k]).Some? && '\\' in PathOf(images[k]).value
    ensures !IsFirstMatch(images, NormalizePath(query), k)
    ensures GetImageFromJson(Array(images), query) != Ok(images[k])
  {
    NormalizePathFacts(query);
  }

  lemma FirstMatchUnique(images: seq<Value>, target: string, k: int, k': int)
    requires IsFirstMatch(images, target, k) && IsFirstMatch(images, target, k')
    ensures k == k'
  {
  }

  /** Past a record whose string path is not `target`, the first match is
      the first match of the remaining records, one place further on. */
  lemma FirstMatchShift(images: seq<Value>, target: string, k: int)
    requires |images| > 0 && PathOf(images[0]).Some? && PathOf(images[0]).value != target
    ensures IsFirstMatch(images, target, k) <==> k >= 1 && IsFirstMatch(images[1..], target, k - 1)
  {
    if k >= 1 {
      assert forall j :: 1 <= j < |images| ==> images[j] == images[1..][j - 1];
    }
  }

  /** The `find` loop: the index of the first record whose path is `target`. */
  function FindFirst(images: seq<Value>, target: string): (r: Result<nat>)
    ensures r.Ok? ==> IsFirstMatch(images, target, r.value)
    ensures r.Err? ==> r.msg == ParseError && forall k :: !IsFirstMatch(images, target, k)
  {
    if |images| == 0 then Err(ParseError)
    else match PathOf(images[0])
      case None => Err(ParseError)
      case Some(p) =>
        if p == target then Ok(0)
        else
          var r := FindFirst(images[1..], target);
          assert forall k :: IsFirstMatch(images, target, k) <==> k >= 1 && IsFirstMatch(images[1..], target, k - 1) by {
            forall k {
              FirstMatchShift(images, target, k);
            }
          }
          match r
          case Err(_) => r
          case Ok(k) => Ok(k + 1)
  }

  /** `get_image_from_json`: the first record whose stored path equals the
      query with back-slashes turned into slashes. */
  function GetImageFromJson(json: Value, query: string): (r: Result<Value>)
    ensures r.Ok? <==> json.Array? && exists k :: IsFirstMatch(json.items, NormalizePath(query), k)
    ensures r.Ok? ==> exists k :: IsFirstMatch(json.items, NormalizePath(query), k) && r.value == json.items[k]
    ensures r.Ok? ==> PathOf(r.value) == Some(NormalizePath(query))
    ensures r.Err? ==> r.msg == ParseError
  {
    match AsArray(json)
    case None => Err(ParseError)
    case Some(images) =>
      match FindFirst(images, NormalizePath(query))
      case Err(e) => Err(e)
      case Ok(k) =>
        assert IsFirstMatch(json.items, NormalizePath(query), k);
        assert exists k' :: IsFirstMatch(json.items, NormalizePath(query), k');
        Ok(images[k])
  }

  /** `json_point[key].as_u64().expect(..)`. */
  function FieldU64(e: Value, key: string): Result<u64> {
    match AsU64(Index(e, key))
    case None => Err(ParseError)
    case Some(v) => Ok(v)
  }

  /** The three fields a point record must carry as unsigned integers. */
  predicate HasPointFields(e: Value) {
    FieldU64(e, "x").Ok? && FieldU64(e, "y").Ok? && FieldU64(e, "n").Ok?
  }

  /** The closure of `extract_points`: one point from one JSON object. */
  function DecodePoint(e: Value): (r: Result<Point>)
    ensures r.Ok? <==> HasPointFields(e)
    ensures r.Ok? ==>
      && r.value.X() == AsU32(FieldU64(e, "x").value)
      && r.value.Y() == AsU32(FieldU64(e, "y").value)
      && r.value.n == AsUsize(FieldU64(e, "n").value)
    ensures r.Err? ==> r.msg == ParseError
  {
    var x :- FieldU64(e, "x");
    var y :- FieldU64(e, "y");
    var n :- FieldU64(e, "n");
    Ok(New(AsU32(x), AsU32(y), AsUsize(n)))
  }

  /** The `map(..).collect()` of `extract_points`: one point per element,
      in order, failing as soon as an element lacks a field. */
  function DecodePoints(es: seq<Value>): (r: Result<seq<Point>>)
    ensures r.Ok? <==> forall i :: 0 <= i < |es| ==> HasPointFields(es[i])
    ensures r.Ok? ==> |r.value| == |es|
    ensures r.Ok? ==> forall i :: 0 <= i < |es| ==> DecodePoint(es[i]) == Ok(r.value[i])
    ensures r.Err? ==> r.msg == ParseError
  {
    if |es| == 0 then Ok([])
    else
      var p :- DecodePoint(es[0]);
      var ps :- DecodePoints(es[1..]);
      assert forall i :: 1 <= i < |es| ==> es[i] == es[1..][i - 1];
      Ok([p] + ps)
  }

  /** `extract_points`: the `"points"` array of a record, decoded point by
      point; each coordinate is the JSON integer cut to 32 bits. */
  function ExtractPoints(image: Value): (r: Result<seq<Point>>)
    ensures r.Ok? <==>
      Index(image, "points").Array? &&
      forall i :: 0 <= i < |Index(image, "points").items| ==> HasPointFields(Index(image, "points").items[i])
    ensures r.Ok? ==> |r.value| == |Index(image, "points").items|
    ensures r.Ok? ==> forall i :: 0 <= i < |r.value| ==>
      var e := Index(image, "points").items[i];
      && r.value[i].X() == AsU32(FieldU64(e, "x").value)
      && r.value[i].Y() == AsU32(FieldU64(e, "y").value)
      && r.value[i].n == AsUsize(FieldU64(e, "n").value)
    ensures r.Err? ==> r.msg == ParseError
  {
    match AsArray(Index(image, "points"))
    case None => Err(ParseError)
    case Some(es) => DecodePoints(es)
  }

  /** A record the whole-file loop gets through: a string path and
      well-formed points. */
  predicate RecordDecodes(image: Value) {
    PathOf(image).Some? && ExtractPoints(image).Ok?
  }

  /** The `for` loop of the whole-file mode over `images`, inserting each
      record's points under its path in document order. */
  function Collect(images: seq<Value>): (r: Result<map<string, seq<Point>>>)
    ensures r.Ok? <==> forall i :: 0 <= i < |images| ==> RecordDecodes(images[i])
    ensures r.Err? ==> r.msg == ParseError
  {
    if |images| == 0 then Ok(map[])
    else
      var init := images[..|images| - 1];
      var last := images[|images| - 1];
      assert forall i :: 0 <= i < |init| ==> init[i] == images[i];
      match Collect(init)
      case Err(e) => Err(e)
      case Ok(m) =>
        match PathOf(last)
        case None => Err(ParseError)
        case Some(path) =>
          match ExtractPoints(last)
          case Err(e) => Err(e)
          case Ok(points) => Ok(m[path := points])
  }

  /** The last record of a successful whole-file import is inserted over
      the map of the records before it. */
  lemma CollectLast(images: seq<Value>)
    requires |images| > 0 && Collect(images).Ok?
    ensures var init, last := images[..|images| - 1], images[|images| - 1];
      && Collect(init).Ok? && PathOf(last).Some? && ExtractPoints(last).Ok?
      && Collect(images).value == Collect(init).value[PathOf(last).value := ExtractPoints(last).value]
  {
  }

  /** The whole-file map has exactly one key per distinct record path. */
  lemma {:induction false} CollectKeys(images: seq<Value>)
    requires Collect(images).Ok?
    ensures forall p :: p in Collect(images).value <==> exists i :: 0 <= i < |images| && PathOf(images[i]) == Some(p)
  {
    if |images| > 0 {
      var n := |images|;
      var init := images[..n - 1];
      var full := Collect(images).value;
      CollectLast(images);
      var m := Collect(init).value;
      var path := PathOf(images[n - 1]).value;
      assert full.Keys == m.Keys + {path};
      assert forall i :: 0 <= i < n - 1 ==> init[i] == images[i];
      CollectKeys(init);
      forall p | p in full
        ensures exists i :: 0 <= i < n && PathOf(images[i]) == Some(p)
      {
        if p != path {
          var i :| 0 <= i < n - 1 && PathOf(init[i]) == Some(p);
          assert PathOf(images[i]) == Some(p);
        } else {
          assert PathOf(images[n - 1]) == Some(p);
        }
      }
      forall p | exists i :: 0 <= i < n && PathOf(images[i]) == Some(p)
        ensures p in full
      {
        var i :| 0 <= i < n && PathOf(images[i]) == Some(p);
        if i < n - 1 {
          assert PathOf(init[i]) == Some(p);
        }
      }
    }
  }

  /** A later record for the same path overwrites an earlier one: the points
      stored under a path are those of the last record carrying it. */
  lemma {:induction false} LaterRecordWins(images: seq<Value>, i: int)
    requires Collect(images).Ok?
    requires 0 <= i < |images|
    requires forall j :: i < j < |images| ==> PathOf(images[j]) != PathOf(images[i])
    ensures PathOf(images[i]).value in Collect(images).value
    ensures Collect(images).value[PathOf(images[i]).value] == ExtractPoints(images[i]).value
  {
    var n := |images|;
    var init := images[..n - 1];
    assert RecordDecodes(images[n - 1]);
    if i < n - 1 {
      assert forall j :: 0 <= j < n - 1 ==> init[j] == images[j];
      LaterRecordWins(init, i);
    }
  }

  /** The whole-file mode: the document must be an array of records. */
  function ImportAll(json: Value): (r: Result<map<string, seq<Point>>>)
    ensures r.Ok? <==> json.Array? && forall i :: 0 <= i < |json.items| ==> RecordDecodes(json.items[i])
    ensures r.Ok? ==> forall p :: p in r.value <==> exists i :: 0 <= i < |json.items| && PathOf(json.items[i]) == Some(p)
    ensures r.Err? ==> r.msg == ParseError
  {
    match AsArray(json)
    case None => Err(ParseError)
    case Some(images) =>
      var r := Collect(images);
      if r.Ok? then CollectKeys(images); r else r
  }

  /** `Point::import`. `loaded` is the document as read and parsed, `None`
      when reading or parsing failed; `query` selects the mode. */
  function Import(loaded: Option<Value>, query: Option<string>): (r: Result<Loaded>)
    ensures loaded.None? ==> r.Err?
    ensures r.Err? ==> r.msg == ParseError
    ensures r.Ok? ==> (r.value.ImagePoints? <==> query.Some?)
    ensures query.Some? && r.Ok? ==>
      && loaded.value.Array?
      && exists k :: IsFirstMatch(loaded.value.items, NormalizePath(query.value), k)
                  && ExtractPoints(loaded.value.items[k]) == Ok(r.value.points)
    ensures query.Some? && loaded.Some? && loaded.value.Array? ==>
      (r.Ok? <==> exists k :: IsFirstMatch(loaded.value.items, NormalizePath(query.value), k)
                           && ExtractPoints(loaded.value.items[k]).Ok?)
    ensures query.None? && loaded.Some? ==>
      (r.Ok? <==> ImportAll(loaded.value).Ok?) && (r.Ok? ==> ImportAll(loaded.value).value == r.value.images)
  {
    match loaded
    case None => Err(ParseError)
    case Some(json) =>
      match query
      case Some(path) =>
        var image :- GetImageFromJson(json, path);
        var points :- ExtractPoints(image);
        Ok(ImagePoints(points))
      case None =>
        var images :- ImportAll(json);
        Ok(AllImages(images))
  }
}

=== FILE: import_fixtures.dfy ===
/** The expectations of the import tests, restated as lemmas about the
    model: the fixture file holds one record, `assets/test.png`, with four
    points. The fixture is taken as the value the JSON reader produces from
    that file. */
module ImportFixtures {
  import opened Results
  import opened Primitives
  import opened Points
  import opened Json
  import opened Import
  import opened Export
  import opened RoundTrip
  import opened ReadBack
  import Legacy

  function FourPoints(): seq<Point> {
    [New(0, 0, 0), New(1, 1, 1), New(2, 2, 2), New(4, 4, 3)]
  }

  function Coordinates(x: u32, y: u32, n: usize): Value {
    Object(map["x" := UInt(x), "y" := UInt(y), "n" := UInt(n)])
  }

  /** The fixture file as a JSON value. */
  function FixtureJson(): Value {
    Array([Object(map[
      "path" := Str("assets/test.png"),
      "points" := Array([Coordinates(0, 0, 0), Coordinates(1, 1, 1), Coordinates(2, 2, 2), Coordinates(4, 4, 3)])])])
  }

  lemma FixtureRecords()
    ensures FixtureJson() == Array(RecordValues([Record("assets/test.png", FourPoints())]))
  {
    var pv := PointValues(FourPoints());
    assert pv == [Coordinates(0, 0, 0), Coordinates(1, 1, 1), Coordinates(2, 2, 2), Coordinates(4, 4, 3)];
  }

  /** Looking up `assets/test.png` yields the four points in file order. */
  lemma FixtureLookup()
    ensures Import.Import(Some(FixtureJson()), Some("assets/test.png")) == Ok(ImagePoints(FourPoints()))
    ensures var ps := FourPoints();
      |ps| == 4 &&
      ps[0].X() == 0 && ps[0].Y() == 0 && ps[0].n == 0 &&
      ps[1].X() == 1 && ps[1].Y() == 1 && ps[1].n == 1 &&
      ps[2].X() == 2 && ps[2].Y() == 2 && ps[2].n == 2 &&
      ps[3].X() == 4 && ps[3].Y() == 4 && ps[3].n == 3
  {
    var path := "assets/test.png";
    assert '\\' !in path;
    FixtureRecords();
    PlainHit(path, FourPoints());
    FourPointCoordinates();
  }

  /** The coordinates the import test checks, point by point. */
  lemma FourPointCoordinates()
    ensures var ps := FourPoints();
      |ps| == 4 &&
      ps[0].X() == 0 && ps[0].Y() == 0 && ps[0].n == 0 &&
      ps[1].X() == 1 && ps[1].Y() == 1 && ps[1].n == 1 &&
      ps[2].X() == 2 && ps[2].Y() == 2 && ps[2].n == 2 &&
      ps[3].X() == 4 && ps[3].Y() == 4 && ps[3].n == 3
  {
  }

  /** A query free of back-slashes finds the record stored under it. */
  lemma PlainHit(path: string, pts: seq<Point>)
    requires '\\' !in path
    ensures Import.Import(Some(Array(RecordValues([Record(path, pts)]))), Some(path)) == Ok(ImagePoints(pts))
  {
    NormalizePathFacts(path);
    LookupValues([Record(path, pts)], path, 0);
  }

  /** Normalising a path with one back-slash between two parts free of
      back-slashes. */
  lemma NormalizeOneBackslash(a: string, b: string)
    requires '\\' !in a && '\\' !in b
    ensures NormalizePath(a + "\\" + b) == a + "/" + b
  {
    var s := a + "\\" + b;
    var r := NormalizePath(s);
    assert forall i :: 0 <= i < |s| ==> r[i] == (a + "/" + b)[i];
  }

  /** A query with a back-slash where the stored path has a slash finds
      that record. */
  lemma BackslashHit(a: string, b: string, pts: seq<Point>)
    requires '\\' !in a && '\\' !in b
    ensures Import.Import(Some(Array(RecordValues([Record(a + "/" + b, pts)]))), Some(a + "\\" + b)) == Ok(ImagePoints(pts))
  {
    NormalizeOneBackslash(a, b);
    LookupValues([Record(a + "/" + b, pts)], a + "\\" + b, 0);
  }

  /** A query written with Windows separators finds the same record. */
  lemma FixtureBackslashLookup()
    ensures Import.Import(Some(FixtureJson()), Some("assets\\test.png")) == Ok(ImagePoints(FourPoints()))
  {
    var a, b := "assets", "test.png";
    assert a + "/" + b == "assets/test.png";
    assert a + "\\" + b == "assets\\test.png";
    FixtureRecords();
    BackslashHit(a, b, FourPoints());
  }

  /** Reading the whole file yields one image with the four points. */
  lemma FixtureAll()
    ensures Import.Import(Some(FixtureJson()), None) == Ok(AllImages(map["assets/test.png" := FourPoints()]))
    ensures |map["assets/test.png" := FourPoints()]| == 1
  {
    var recs := [Record("assets/test.png", FourPoints())];
    FixtureRecords();
    ImportAllValues(recs);
    assert recs[..0] == [];
    assert Imported(recs) == map[][recs[0].path := recs[0].points];
  }

  /** A query free of back-slashes that no record carries is an error. */
  lemma PlainMiss(recs: seq<Record>, q: string)
    requires '\\' !in q
    requires forall j :: 0 <= j < |recs| ==> recs[j].path != q
    ensures Import.Import(Some(Array(RecordValues(recs))), Some(q)) == Err(ParseError)
  {
    NormalizePathFacts(q);
    LookupMissValues(recs, q);
  }

  /** A path the file does not hold is an error. */
  lemma FixtureMissing()
    ensures Import.Import(Some(FixtureJson()), Some("nonexistent/file/path")) == Err(ParseError)
  {
    FixtureRecords();
    PlainMiss([Record("assets/test.png", FourPoints())], "nonexistent/file/path");
  }

  /** The same lookup through the older snapshot's `import`. */
  lemma LegacyFixtureLookup()
    ensures Legacy.Import(Some(FixtureJson()), Some("assets/test.png")) == Ok(Legacy.ImagePoints(Legacy.FromPoints(FourPoints())))
    ensures var ps := Legacy.FromPoints(FourPoints());
      |ps| == 4 &&
      ps[0].X() == 0 && ps[0].Y() == 0 && ps[0].n == 0 &&
      ps[1].X() == 1 && ps[1].Y() == 1 && ps[1].n == 1 &&
      ps[2].X() == 2 && ps[2].Y() == 2 && ps[2].n == 2 &&
      ps[3].X() == 4 && ps[3].Y() == 4 && ps[3].n == 3
  {
    FixtureLookup();
  }

  /** The whole file through the older snapshot's `import`. */
  lemma LegacyFixtureAll()
    ensures Legacy.Import(Some(FixtureJson()), None) ==
      Ok(Legacy.AllImages(map["assets/test.png" := Legacy.FromPoints(FourPoints())]))
  {
    var path, pts := "assets/test.png", FourPoints();
    assert Import.Import(Some(FixtureJson()), None) == Ok(AllImages(map[path := pts])) by {
      FixtureAll();
    }
    LegacyAllImages(FixtureJson(), path, pts);
  }

  /** When the whole-file import gives one image, the snapshot's import
      gives that image with its points converted. */
  lemma LegacyAllImages(v: Value, path: string, pts: seq<Point>)
    requires Import.Import(Some(v), None) == Ok(AllImages(map[path := pts]))
    ensures Legacy.Import(Some(v), None) == Ok(Legacy.AllImages(map[path := Legacy.FromPoints(pts)]))
  {
    var m := Legacy.FromMap(map[path := pts]);
    SingleKeyMap(m, path, Legacy.FromPoints(pts));
  }
}

=== FILE: json.dfy ===
/** The part of `serde_json::Value` the decoder touches: the value shapes,
    indexing by a key, and the `as_str` / `as_array` / `as_u64` views. */
module Json {
  import opened Results
  import opened Primitives

  type neg = i: int | i < 0 witness -1

  /** serde keeps non-negative integers as `PosInt(u64)`, negative ones as
      `NegInt(i64)` and everything else as an `f64`; the float's value never
      matters here, so `Float` carries none. Object keys are unique. */
  datatype Value =
    | Null
    | Bool(b: bool)
    | UInt(u: u64)
    | NegInt(i: neg)
    | Float
    | Str(s: string)
    | Array(items: seq<Value>)
    | Object(fields: map<string, Value>)

  /** `value[key]`: the member of an object, or `Null` when the key is
      missing or the value is not an object (serde never panics here). */
  function Index(v: Value, key: string): (r: Value)
    ensures v.Object? && key in v.fields ==> r == v.fields[key]
    ensures !(v.Object? && key in v.fields) ==> r == Null
  {
    if v.Object? && key in v.fields then v.fields[key] else Null
  }

  function AsStr(v: Value): Option<string> {
    if v.Str? then Some(v.s) else None
  }

  function AsArray(v: Value): Option<seq<Value>> {
    if v.Array? then Some(v.items) else None
  }

  /** `as_u64`: only non-negative integers have a `u64` view. */
  function AsU64(v: Value): Option<u64> {
    if v.UInt? then Some(v.u) else None
  }
}

=== FILE: json_text.dfy ===
/** A small model of `serde_json::from_str::<Value>` for the subset of JSON
    the writers produce: objects, arrays, strings without escapes,
    unsigned integers and the three literals. Anything else is reported as
    an error rather than parsed. It exists to state the writers' round
    trips over text. */
module JsonText {
  import opened Results
  import opened Primitives
  import opened Json
  import opened Decimal

  const SyntaxError: string := "invalid JSON text"
  const Unsupported: string := "JSON text outside the modelled subset"

  predicate IsWs(c: char) {
    c == ' ' || c == '\t' || c == '\n' || c == '\r'
  }

  predicate AllWs(s: string) {
    forall i :: 0 <= i < |s| ==> IsWs(s[i])
  }

  /** Drops leading whitespace. */
  function SkipWs(s: string): (r: string)
    ensures |r| <= |s|
    ensures r == s[|s| - |r|..]
    ensures AllWs(s[..|s| - |r|])
    ensures |r| > 0 ==> !IsWs(r[0])
  {
    if |s| > 0 && IsWs(s[0]) then SkipWs(s[1..]) else s
  }

  /** A character a string literal may hold without escaping. */
  predicate IsPlainChar(c: char) {
    c != '"' && c != '\\' && c >= ' '
  }

  predicate IsPlain(s: string) {
    forall i :: 0 <= i < |s| ==> IsPlainChar(s[i])
  }

  /** The body of a string literal whose opening quote is already read,
      and the text after its closing quote. */
  function ParseChars(s: string): (r: Result<(string, string)>)
    ensures r.Ok? ==> IsPlain(r.value.0) && s == r.value.0 + "\"" + r.value.1
  {
    if |s| == 0 then Err(SyntaxError)
    else if s[0] == '"' then Ok(([], s[1..]))
    else if !IsPlainChar(s[0]) then Err(Unsupported)
    else
      match ParseChars(s[1..])
      case Err(e) => Err(e)
      case Ok(pr) => Ok(([s[0]] + pr.0, pr.1))
  }

  /** The length of the run of digits `s` starts with. */
  function DigitRun(s: string): (k: nat)
    ensures k <= |s|
    ensures AllDigits(s[..k])
    ensures k < |s| ==> !IsDigit(s[k])
  {
    if |s| > 0 && IsDigit(s[0]) then 1 + DigitRun(s[1..]) else 0
  }

  /** An unsigned integer. Integers beyond `u64` become floats, as in
      serde; fractions and exponents are outside the subset. */
  function ParseNumber(s: string): (r: Result<(Value, string)>)
    requires |s| > 0 && IsDigit(s[0])
    ensures r.Ok? ==> |r.value.1| < |s|
  {
    var k := DigitRun(s);
    if s[0] == '0' && k > 1 then Err(SyntaxError)
    else if k < |s| && (s[k] == '.' || s[k] == 'e' || s[k] == 'E') then Err(Unsupported)
    else
      var n := DigitsValue(s[..k]);
      Ok((if n < TWO_64 then UInt(n) else Float, s[k..]))
  }

  /** One value after optional whitespace, and the text after it. */
  function ParseValue(s: string): (r: Result<(Value, string)>)
    ensures r.Ok? ==> |r.value.1| < |s|
    decreases |s|, 1
  {
    ParseToken(SkipWs(s))
  }

  /** One value, its leading whitespace already skipped: the first
      character decides what it is. */
  function ParseToken(t: string): (r: Result<(Value, string)>)
    ensures r.Ok? ==> |r.value.1| < |t|
    decreases |t|, 0
  {
    if |t| == 0 then Err(SyntaxError)
    else if t[0] == '{' then ParseObject(t[1..])
    else if t[0] == '[' then ParseArray(t[1..])
    else if t[0] == '"' then
      match ParseChars(t[1..])
      case Err(e) => Err(e)
      case Ok(pr) => Ok((Str(pr.0), pr.1))
    else if IsDigit(t[0]) then ParseNumber(t)
    else if |t| >= 4 && t[..4] == "null" then Ok((Null, t[4..]))
    else if |t| >= 4 && t[..4] == "true" then Ok((Bool(true), t[4..]))
    else if |t| >= 5 && t[..5] == "false" then Ok((Bool(false), t[5..]))
    else if t[0] == '-' then Err(Unsupported)
    else Err(SyntaxError)
  }

  /** An array whose `[` is already read. */
  function ParseArray(s: string): (r: Result<(Value, string)>)
    ensures r.Ok? ==> |r.value.1| < |s|
    decreases |s|, 3
  {
    var t := SkipWs(s);
    if |t| > 0 && t[0] == ']' then Ok((Array([]), t[1..])) else ParseElements(t, [])
  }

  /** The elements of an array from the next element on; `acc` holds the
      elements already read. */
  function ParseElements(s: string, acc: seq<Value>): (r: Result<(Value, string)>)
    ensures r.Ok? ==> |r.value.1| < |s|
    decreases |s|, 2
  {
    match ParseValue(s)
    case Err(e) => Err(e)
    case Ok(pr) => ParseElementsRest(pr.1, acc + [pr.0])
  }

  /** What follows an element: a comma and more elements, or the closing
      bracket. */
  function ParseElementsRest(s: string, acc: seq<Value>): (r: Result<(Value, string)>)
    ensures r.Ok? ==> |r.value.1| < |s|
    decreases |s|, 0
  {
    var u := SkipWs(s);
    if |u| == 0 then Err(SyntaxError)
    else if u[0] == ',' then ParseElements(u[1..], acc)
    else if u[0] == ']' then Ok((Array(acc), u[1..]))
    else Err(SyntaxError)
  }

  /** An object whose `{` is already read. */
  function ParseObject(s: string): (r: Result<(Value, string)>)
    ensures r.Ok? ==> |r.value.1| < |s|
    decreases |s|, 3
  {
    var t := SkipWs(s);
    if |t| > 0 && t[0] == '}' then Ok((Object(map[]), t[1..])) else ParseMembers(t, map[])
  }

  /** The members of an object from the next key on; `acc` holds the
      members already read, and a repeated key keeps its last value. */
  function ParseMembers(s: string, acc: map<string, Value>): (r: Result<(Value, string)>)
    ensures r.Ok? ==> |r.value.1| < |s|
    decreases |s|, 2
  {
    ParseMember(SkipWs(s), acc)
  }

  /** `ParseMembers` once the whitespace before the key is skipped. */
  function ParseMember(t: string, acc: map<string, Value>): (r: Result<(Value, string)>)
    ensures r.Ok? ==> |r.value.1| < |t|
    decreases |t|, 1
  {
    if |t| == 0 || t[0] != '"' then Err(SyntaxError)
    else
      match ParseChars(t[1..])
      case Err(e) => Err(e)
      case Ok(kr) => ParseMemberValue(kr.0, kr.1, acc)
  }

  /** A member after its key: the colon and the value. */
  function ParseMemberValue(key: string, s: string, acc: map<string, Value>): (r: Result<(Value, string)>)
    ensures r.Ok? ==> |r.value.1| < |s|
    decreases |s|, 1
  {
    var u := SkipWs(s);
    if |u| == 0 || u[0] != ':' then Err(SyntaxError)
    else
      match ParseValue(u[1..])
      case Err(e) => Err(e)
      case Ok(vr) => ParseMembersRest(vr.1, acc[key := vr.0])
  }

  /** What follows a member: a comma and more members, or the closing
      brace; a repeated key keeps its last value. */
  function ParseMembersRest(s: string, acc: map<string, Value>): (r: Result<(Value, string)>)
    ensures r.Ok? ==> |r.value.1| < |s|
    decreases |s|, 0
  {
    var w := SkipWs(s);
    if |w| == 0 then Err(SyntaxError)
    else if w[0] == ',' then ParseMembers(w[1..], acc)
    else if w[0] == '}' then Ok((Object(acc), w[1..]))
    else Err(SyntaxError)
  }

  /** A whole document: one value, then nothing but whitespace. */
  function ParseDocument(s: string): (r: Result<Value>)
    ensures r.Ok? ==> ParseValue(s).Ok? && r.value == ParseValue(s).value.0
  {
    match ParseValue(s)
    case Err(e) => Err(e)
    case Ok(pr) => if SkipWs(pr.1) == [] then Ok(pr.0) else Err(SyntaxError)
  }

  lemma {:induction false} SkipWsPrefix(w: string, s: string)
    requires AllWs(w)
    ensures SkipWs(w + s) == SkipWs(s)
  {
    if |w| > 0 {
      assert (w + s)[1..] == w[1..] + s;
      SkipWsPrefix(w[1..], s);
    } else {
      assert w + s == s;
    }
  }

  lemma ValueOfBrace(m: string)
    ensures ParseValue("{" + m) == ParseObject(m)
  {
    var s := "{" + m;
    assert s[0] == '{' && s[1..] == m;
    SkipWsStops(s);
    TokenOfObject(s);
  }

  lemma TokenOfObject(s: string)
    requires |s| > 0 && s[0] == '{'
    ensures ParseToken(s) == ParseObject(s[1..])
  {
  }

  lemma ValueOfBracket(m: string)
    ensures ParseValue("[" + m) == ParseArray(m)
  {
    var s := "[" + m;
    assert s[0] == '[' && s[1..] == m;
    SkipWsStops(s);
    TokenOfArray(s);
  }

  lemma TokenOfArray(s: string)
    requires |s| > 0 && s[0] == '['
    ensures ParseToken(s) == ParseArray(s[1..])
  {
  }

  /** Whitespace in front of a value does not change what is read. */
  lemma ParseValueAfterWs(w: string, s: string)
    requires AllWs(w)
    ensures ParseValue(w + s) == ParseValue(s)
  {
    SkipWsPrefix(w, s);
  }

  lemma ParseElementsAfterWs(w: string, s: string, acc: seq<Value>)
    requires AllWs(w)
    ensures ParseElements(w + s, acc) == ParseElements(s, acc)
  {
    ParseValueAfterWs(w, s);
  }

  lemma ParseMembersAfterWs(w: string, s: string, acc: map<string, Value>)
    requires AllWs(w)
    ensures ParseMembers(w + s, acc) == ParseMembers(s, acc)
  {
    SkipWsPrefix(w, s);
  }

  lemma {:induction false} ParseCharsPlain(p: string, rest: string)
    requires IsPlain(p)
    ensures ParseChars(p + ("\"" + rest)) == Ok((p, rest))
  {
    if |p| == 0 {
      assert p + ("\"" + rest) == "\"" + rest;
    } else {
      assert (p + ("\"" + rest))[1..] == p[1..] + ("\"" + rest);
      ParseCharsPlain(p[1..], rest);
      assert [p[0]] + p[1..] == p;
    }
  }

  /** A quoted plain string reads back as itself. */
  lemma ParseStringText(p: string, rest: string)
    requires IsPlain(p)
    ensures ParseValue("\"" + p + "\"" + rest) == Ok((Str(p), rest))
  {
    var s := "\"" + p + "\"" + rest;
    assert s[1..] == p + ("\"" + rest);
    ParseCharsPlain(p, rest);
  }

  lemma {:induction false} DigitRunOfDigits(d: string, rest: string)
    requires AllDigits(d)
    requires |rest| > 0 ==> !IsDigit(rest[0])
    ensures DigitRun(d + rest) == |d|
  {
    if |d| > 0 {
      assert (d + rest)[1..] == d[1..] + rest;
      DigitRunOfDigits(d[1..], rest);
    } else {
      assert d + rest == rest;
    }
  }

  /** A value that starts with a digit is a number. */
  lemma ValueOfDigit(t: string)
    requires |t| > 0 && IsDigit(t[0])
    ensures ParseValue(t) == ParseNumber(t)
  {
    SkipWsStops(t);
    TokenOfDigit(t);
  }

  /** Whitespace skipping stops at the first other character. */
  lemma SkipWsStops(t: string)
    requires |t| > 0 && !IsWs(t[0])
    ensures SkipWs(t) == t
  {
  }

  lemma TokenOfDigit(t: string)
    requires |t| > 0 && IsDigit(t[0])
    ensures ParseToken(t) == ParseNumber(t)
  {
  }

  /** The digits of a `u64` read as that integer. */
  lemma ParseNumberDigits(n: nat, rest: string)
    requires n < TWO_64
    requires |rest| > 0 ==> !IsDigit(rest[0]) && rest[0] != '.' && rest[0] != 'e' && rest[0] != 'E'
    ensures |Dec(n) + rest| > 0 && IsDigit((Dec(n) + rest)[0])
    ensures ParseNumber(Dec(n) + rest) == Ok((UInt(n), rest))
  {
    var d := Dec(n);
    var s := d + rest;
    DigitRunOfDigits(d, rest);
    assert s[..|d|] == d;
    assert s[|d|..] == rest;
    DecRoundTrip(n);
    assert s[0] == d[0];
    assert s[0] == '0' ==> n == 0 && |d| == 1;
  }

  /** The decimal text of a `u64` reads back as that integer, when no digit,
      fraction or exponent follows it. */
  lemma ParseDecimalText(n: nat, rest: string)
    requires n < TWO_64
    requires |rest| > 0 ==> !IsDigit(rest[0]) && rest[0] != '.' && rest[0] != 'e' && rest[0] != 'E'
    ensures ParseValue(Dec(n) + rest) == Ok((UInt(n), rest))
  {
    ParseNumberDigits(n, rest);
    ValueOfDigit(Dec(n) + rest);
  }

  /** A plain key in quotes, then what follows it. */
  lemma ParseMemberKey(key: string, x: string, acc: map<string, Value>)
    requires IsPlain(key)
    ensures ParseMember("\"" + (key + ("\"" + x)), acc) == ParseMemberValue(key, x, acc)
  {
    var s := "\"" + (key + ("\"" + x));
    assert s[1..] == key + ("\"" + x);
    ParseCharsPlain(key, x);
  }

  /** A colon, then a value text. */
  lemma ParseMemberColon(key: string, y: string, v: Value, after: string, acc: map<string, Value>)
    requires ParseValue(y) == Ok((v, after))
    ensures ParseMemberValue(key, ":" + y, acc) == ParseMembersRest(after, acc[key := v])
  {
    SkipWsStops(":" + y);
    assert (":" + y)[1..] == y;
  }

  lemma MembersRestComma(more: string, acc: map<string, Value>)
    ensures ParseMembersRest("," + more, acc) == ParseMembers(more, acc)
  {
    var t := "," + more;
    assert SkipWs(t) == t by {
      SkipWsStops(t);
    }
    assert t[0] == ',' && t[1..] == more;
  }

  lemma MembersRestClose(w: string, tail: string, acc: map<string, Value>)
    requires AllWs(w)
    ensures ParseMembersRest(w + ("}" + tail), acc) == Ok((Object(acc), tail))
  {
    var t := "}" + tail;
    assert SkipWs(w + t) == t by {
      SkipWsPrefix(w, t);
      SkipWsStops(t);
    }
    assert t[0] == '}' && t[1..] == tail;
  }

  /** One `"key": value,` member, followed by more members. */
  lemma ParseMemberThen(key: string, vtext: string, v: Value, more: string, acc: map<string, Value>)
    requires IsPlain(key)
    requires ParseValue(vtext + ("," + more)) == Ok((v, "," + more))
    ensures ParseMember("\"" + (key + ("\"" + (":" + (vtext + ("," + more))))), acc) == ParseMembers(more, acc[key := v])
  {
    ParseMemberKey(key, ":" + (vtext + ("," + more)), acc);
    ParseMemberColon(key, vtext + ("," + more), v, "," + more, acc);
    MembersRestComma(more, acc[key := v]);
  }

  /** The last `"key": value` member of an object and its closing brace. */
  lemma ParseMemberLast(key: string, vtext: string, v: Value, w: string, tail: string, acc: map<string, Value>)
    requires IsPlain(key) && AllWs(w)
    requires ParseValue(vtext + (w + ("}" + tail))) == Ok((v, w + ("}" + tail)))
    ensures ParseMember("\"" + (key + ("\"" + (":" + (vtext + (w + ("}" + tail)))))), acc) == Ok((Object(acc[key := v]), tail))
  {
    ParseMemberKey(key, ":" + (vtext + (w + ("}" + tail))), acc);
    ParseMemberColon(key, vtext + (w + ("}" + tail)), v, w + ("}" + tail), acc);
    MembersRestClose(w, tail, acc[key := v]);
  }

  /** What follows an array element: a comma and more elements. */
  lemma ElementsRestComma(more: string, acc: seq<Value>)
    ensures ParseElementsRest("," + more, acc) == ParseElements(more, acc)
  {
    var t := "," + more;
    assert SkipWs(t) == t by {
      SkipWsStops(t);
    }
    assert t[0] == ',' && t[1..] == more;
  }

  /** What follows the last array element: whitespace and the bracket. */
  lemma ElementsRestClose(w: string, tail: string, acc: seq<Value>)
    requires AllWs(w)
    ensures ParseElementsRest(w + ("]" + tail), acc) == Ok((Array(acc), tail))
  {
    var t := "]" + tail;
    assert SkipWs(w + t) == t by {
      SkipWsPrefix(w, t);
      SkipWsStops(t);
    }
    assert t[0] == ']' && t[1..] == tail;
  }
}

=== FILE: legacy.dfy ===
/** The earlier snapshot of the point store in src/points.rs: the same
    decoder, with a private `_Point` coordinate in place of
    `mint::Point2<u32>` and conversions between the two. The decoder is the
    shared one of `Import`; its points are carried over field by field. */
module Legacy {
  import opened Results
  import opened Primitives
  import opened Points
  import opened Json
  import Shared = Import

  /** `_Point`: the private coordinate pair. */
  datatype Coord = Coord(x: u32, y: u32)

  /** The snapshot's `Point`: a `_Point` and the ordinal `n`. */
  datatype LegacyPoint = LegacyPoint(point: Coord, n: usize) {

    function X(): u32 {
      point.x
    }

    function Y(): u32 {
      point.y
    }
  }

  /** What the snapshot's `import` hands back in each mode. */
  datatype LegacyLoaded =
    | ImagePoints(points: seq<LegacyPoint>)
    | AllImages(images: map<string, seq<LegacyPoint>>)

  /** `impl From<mint::Point2<u32>> for _Point`. */
  function FromMint(p: Point2): (r: Coord)
    ensures r.x == p.x && r.y == p.y
  {
    Coord(p.x, p.y)
  }

  /** `impl From<_Point> for mint::Point2<u32>`. */
  function IntoMint(c: Coord): (r: Point2)
    ensures r.x == c.x && r.y == c.y
  {
    Point2(c.x, c.y)
  }

  /** The two conversions are inverse to each other. */
  lemma MintRoundTrip(p: Point2, c: Coord)
    ensures IntoMint(FromMint(p)) == p
    ensures FromMint(IntoMint(c)) == c
  {
  }

  /** A decoded point in the snapshot's representation: the same
      coordinates and ordinal. */
  function FromPoint(p: Point): (r: LegacyPoint)
    ensures r.X() == p.X() && r.Y() == p.Y() && r.n == p.n
  {
    LegacyPoint(FromMint(p.Coordinate()), p.n)
  }

  function FromPoints(ps: seq<Point>): (r: seq<LegacyPoint>)
    ensures |r| == |ps|
    ensures forall i :: 0 <= i < |ps| ==> r[i] == FromPoint(ps[i])
  {
    if |ps| == 0 then [] else [FromPoint(ps[0])] + FromPoints(ps[1..])
  }

  /** The snapshot's `extract_points`: one point per element of the
      `"points"` array, in order, each coordinate cut to 32 bits; an error
      when the array or a field is missing. */
  function ExtractPoints(image: Value): (r: Result<seq<LegacyPoint>>)
    ensures r.Ok? <==>
      Index(image, "points").Array? &&
      forall i :: 0 <= i < |Index(image, "points").items| ==> Shared.HasPointFields(Index(image, "points").items[i])
    ensures r.Ok? ==> |r.value| == |Index(image, "points").items|
    ensures r.Ok? ==> forall i :: 0 <= i < |r.value| ==>
      var e := Index(image, "points").items[i];
      && r.value[i].X() == AsU32(Shared.FieldU64(e, "x").value)
      && r.value[i].Y() == AsU32(Shared.FieldU64(e, "y").value)
      && r.value[i].n == AsUsize(Shared.FieldU64(e, "n").value)
    ensures r.Err? ==> r.msg == Shared.ParseError
  {
    match Shared.ExtractPoints(image)
    case Err(e) => Err(e)
    case Ok(ps) => Ok(FromPoints(ps))
  }

  function FromMap(m: map<string, seq<Point>>): (r: map<string, seq<LegacyPoint>>)
    ensures r.Keys == m.Keys
    ensures forall p :: p in m ==> r[p] == FromPoints(m[p])
  {
    map p | p in m :: FromPoints(m[p])
  }

  /** The snapshot's `import`: the same two modes over the same lookup and
      whole-file fold, yielding the snapshot's points. */
  function Import(loaded: Option<Value>, query: Option<string>): (r: Result<LegacyLoaded>)
    ensures loaded.None? ==> r.Err?
    ensures r.Err? ==> r.msg == Shared.ParseError
    ensures r.Ok? ==> (r.value.ImagePoints? <==> query.Some?)
    ensures query.Some? && r.Ok? ==>
      && loaded.value.Array?
      && exists k :: Shared.IsFirstMatch(loaded.value.items, Shared.NormalizePath(query.value), k)
                  && ExtractPoints(loaded.value.items[k]) == Ok(r.value.points)
    ensures query.Some? && loaded.Some? && loaded.value.Array? ==>
      (r.Ok? <==> exists k :: Shared.IsFirstMatch(loaded.value.items, Shared.NormalizePath(query.value), k)
                           && ExtractPoints(loaded.value.items[k]).Ok?)
    ensures query.None? && loaded.Some? ==>
      (r.Ok? <==> Shared.ImportAll(loaded.value).Ok?) &&
      (r.Ok? ==> r.value.images == FromMap(Shared.ImportAll(loaded.value).value))
  {
    match Shared.Import(loaded, query)
    case Err(e) => Err(e)
    case Ok(l) =>
      if l.ImagePoints? then Ok(ImagePoints(FromPoints(l.points)))
      else Ok(AllImages(FromMap(l.images)))
  }
}

=== FILE: points.dfy ===
/** The annotated point of src/points/mod.rs: a `mint::Point2<u32>`
    coordinate plus the ordinal `n` of the point. */
module Points {
  import opened Primitives

  /** `mint::Point2<u32>`, a plain pair. */
  datatype Point2 = Point2(x: u32, y: u32)

  datatype Point = Point(point: Point2, n: usize) {

    function X(): u32 {
      point.x
    }

    function Y(): u32 {
      point.y
    }

    /** The `mint::Point2` held by this point (a copy). */
    function Coordinate(): Point2 {
      point
    }
  }

  /** `Point::new`. */
  function New(x: u32, y: u32, n: usize): (p: Point)
    ensures p.X() == x && p.Y() == y && p.n == n
    ensures p.Coordinate() == Point2(x, y)
  {
    Point(Point2(x, y), n)
  }

  /** A point is determined by what its accessors return: reading `x()`,
      `y()` and `n` back and building a new point gives the same point. */
  lemma AccessorsDetermine(p: Point, q: Point)
    ensures New(p.X(), p.Y(), p.n) == p
    ensures p.X() == q.X() && p.Y() == q.Y() && p.n == q.n ==> p == q
  {
  }
}

=== FILE: primitives.dfy ===
/** Rust's fixed-width unsigned integers and the truncating `as` casts the
    decoder applies to them. `usize` is taken to be 64 bits wide, the width
    of every target the tool is built for. */
module Primitives {

  const TWO_32: int := 0x1_0000_0000
  const TWO_64: int := 0x1_0000_0000_0000_0000

  type u32 = x: int | 0 <= x < TWO_32
  type u64 = x: int | 0 <= x < TWO_64
  type usize = u64

  /** `v as u32`: keeps the low 32 bits. */
  function AsU32(v: u64): (r: u32)
    ensures v < TWO_32 ==> r == v
    ensures (v - r) % TWO_32 == 0
  {
    v % TWO_32
  }

  /** `v as usize` on a 64-bit target: no bits are lost. */
  function AsUsize(v: u64): (r: usize)
    ensures r == v
  {
    v
  }
}

=== FILE: readback.dfy ===
/** Exporting, then importing: the decoder applied to the writers' text
    (read through the model parser) gives back what was written. */
module ReadBack {
  import opened Results
  import opened Primitives
  import opened Points
  import opened Json
  import opened JsonText
  import opened Import
  import opened Export
  import opened RoundTrip

  /** Reading a document's text and parsing it, as `import` does before
      decoding; `None` when the text is not (modelled) JSON. */
  function Load(text: string): (r: Option<Value>)
    ensures r.Some? <==> ParseDocument(text).Ok?
    ensures r.Some? ==> r.value == ParseDocument(text).value
  {
    match ParseDocument(text)
    case Ok(v) => Some(v)
    case Err(_) => None
  }

  /** A point written by the encoder decodes to the same point. */
  lemma DecodePointValue(p: Point)
    ensures DecodePoint(PointValue(p)) == Ok(p)
  {
    assert FieldU64(PointValue(p), "x") == Ok(p.X() as u64);
    assert FieldU64(PointValue(p), "y") == Ok(p.Y() as u64);
    assert FieldU64(PointValue(p), "n") == Ok(p.n);
    AccessorsDetermine(p, p);
  }

  /** A record's JSON value carries its path and decodes to its points. */
  lemma DecodeRecordValue(rec: Record)
    ensures PathOf(RecordValue(rec)) == Some(rec.path)
    ensures ExtractPoints(RecordValue(rec)) == Ok(rec.points)
    ensures RecordDecodes(RecordValue(rec))
  {
    var es := PointValues(rec.points);
    assert Index(RecordValue(rec), "points") == Array(es);
    forall i | 0 <= i < |es| ensures DecodePoint(es[i]) == Ok(rec.points[i]) {
      DecodePointValue(rec.points[i]);
    }
    var r := ExtractPoints(RecordValue(rec));
    assert r.Ok?;
    assert |r.value| == |rec.points|;
    forall i | 0 <= i < |es| ensures r.value[i] == rec.points[i] {
      assert DecodePoint(es[i]) == Ok(r.value[i]);
    }
    assert r.value == rec.points;
  }

  /** `serialize` round trip: for a path needing no escape and at least one
      point, reading the text back gives the path and the same points, in
      order, with the same coordinates. */
  lemma SerializeRoundTrip(rec: Record)
    requires Writable(rec)
    ensures Load(Serialize(rec.path, rec.points)) == Some(RecordValue(rec))
    ensures PathOf(Load(Serialize(rec.path, rec.points)).value) == Some(rec.path)
    ensures ExtractPoints(Load(Serialize(rec.path, rec.points)).value) == Ok(rec.points)
  {
    var tail: string := [];
    var t := Serialize(rec.path, rec.points);
    ParseSerialized(rec, tail);
    assert t + tail == t;
    WholeDocument(t, RecordValue(rec));
    DecodeRecordValue(rec);
  }

  lemma AllDecode(recs: seq<Record>)
    ensures forall i :: 0 <= i < |recs| ==> PathOf(RecordValues(recs)[i]) == Some(recs[i].path)
    ensures forall i :: 0 <= i < |recs| ==> ExtractPoints(RecordValues(recs)[i]) == Ok(recs[i].points)
    ensures forall i :: 0 <= i < |recs| ==> RecordDecodes(RecordValues(recs)[i])
  {
    forall i | 0 <= i < |recs|
      ensures PathOf(RecordValues(recs)[i]) == Some(recs[i].path)
      ensures ExtractPoints(RecordValues(recs)[i]) == Ok(recs[i].points)
    {
      DecodeRecordValue(recs[i]);
    }
  }

  /** The path-to-points map of a record list, inserting in list order:
      the reference the whole-file import is compared with. */
  function Imported(recs: seq<Record>): map<string, seq<Point>> {
    if |recs| == 0 then map[]
    else Imported(recs[..|recs| - 1])[recs[|recs| - 1].path := recs[|recs| - 1].points]
  }

  /** The reference map has one key per distinct path. */
  lemma {:induction false} ImportedKeys(recs: seq<Record>)
    ensures forall p :: p in Imported(recs) <==> exists i :: 0 <= i < |recs| && recs[i].path == p
  {
    if |recs| > 0 {
      var n := |recs|;
      var init := recs[..n - 1];
      ImportedKeys(init);
      forall p ensures p in Imported(recs) <==> exists i :: 0 <= i < n && recs[i].path == p {
        if p in Imported(recs) && p != recs[n - 1].path {
          assert p in Imported(init);
          var i :| 0 <= i < n - 1 && init[i].path == p;
          assert recs[i].path == p;
        }
        if exists i :: 0 <= i < n && recs[i].path == p {
          var i :| 0 <= i < n && recs[i].path == p;
          if i < n - 1 {
            assert init[i].path == p;
          }
        }
      }
    }
  }

  /** Under each path, the reference map holds the points of the last
      record carrying it. */
  lemma {:induction false} ImportedLastWins(recs: seq<Record>, i: int)
    requires 0 <= i < |recs|
    requires forall j :: i < j < |recs| ==> recs[j].path != recs[i].path
    ensures recs[i].path in Imported(recs) && Imported(recs)[recs[i].path] == recs[i].points
  {
    var n := |recs|;
    if i < n - 1 {
      var init := recs[..n - 1];
      assert init[i] == recs[i];
      ImportedLastWins(init, i);
    }
  }

  /** The whole-file import of written records' values builds the
      reference map. */
  lemma {:induction false} CollectRecordValues(recs: seq<Record>)
    ensures Collect(RecordValues(recs)) == Ok(Imported(recs))
  {
    if |recs| > 0 {
      var n := |recs|;
      var init, last := recs[..n - 1], recs[n - 1];
      var vs, v := RecordValues(init), RecordValue(last);
      CollectRecordValues(init);
      assert RecordValues(recs) == vs + [v] by {
        SplitLast(recs);
        RecordValuesSnoc(init, last);
      }
      assert RecordDecodes(v) && PathOf(v) == Some(last.path) && ExtractPoints(v) == Ok(last.points) by {
        DecodeRecordValue(last);
      }
      CollectSnoc(vs, v);
      ImportedLast(recs);
    }
  }

  /** The text of writable records loads as the array of their values. */
  lemma LoadDocument(recs: seq<Record>)
    requires forall i :: 0 <= i < |recs| ==> Writable(recs[i])
    ensures Load(Document(recs)) == Some(Array(RecordValues(recs)))
  {
    ParseDocumentText(recs);
  }

  /** Whole-file import of the values of records enumerating a map gives
      back the map. */
  lemma ImportedEnumeration(images: map<string, seq<Point>>, order: seq<string>)
    requires Enumerates(order, images)
    ensures Imported(RecordsOf(images, order)) == images
  {
    var recs := RecordsOf(images, order);
    var m := Imported(recs);
    forall p | p in images ensures p in m && m[p] == images[p] {
      EnumeratedEntry(images, order, p);
    }
    forall p | p in m ensures p in images {
      ImportedKeys(recs);
      var i :| 0 <= i < |recs| && recs[i].path == p;
      assert order[i] == p;
    }
  }

  lemma EnumeratedEntry(images: map<string, seq<Point>>, order: seq<string>, p: string)
    requires Enumerates(order, images) && p in images
    ensures p in Imported(RecordsOf(images, order))
    ensures Imported(RecordsOf(images, order))[p] == images[p]
  {
    var recs := RecordsOf(images, order);
    var i :| 0 <= i < |order| && order[i] == p;
    assert recs[i].path == p;
    forall j | i < j < |recs| ensures recs[j].path != recs[i].path {
      assert recs[j].path == order[j];
    }
    ImportedLastWins(recs, i);
  }

  /** Whole-file `import` of written records' values. */
  lemma ImportAllValues(recs: seq<Record>)
    ensures Import.Import(Some(Array(RecordValues(recs))), None) == Ok(AllImages(Imported(recs)))
  {
    CollectRecordValues(recs);
  }

  /** The records of a map whose paths need no escape and whose point
      lists are non-empty are all writable. */
  lemma WritableRecordsOf(images: map<string, seq<Point>>, order: seq<string>)
    requires Enumerates(order, images)
    requires forall p :: p in images ==> IsPlain(p) && |images[p]| > 0
    ensures forall i :: 0 <= i < |order| ==> Writable(RecordsOf(images, order)[i])
  {
  }

  /** `export_all` round trip: importing the whole document it writes gives
      back the map, whatever order the map was visited in, provided every
      path needs no escape and every point list is non-empty. */
  lemma ExportAllRoundTrip(images: map<string, seq<Point>>, order: seq<string>)
    requires Enumerates(order, images) && |images| > 0
    requires forall p :: p in images ==> IsPlain(p) && |images[p]| > 0
    ensures Import.Import(Load(ExportAll(images, order)), None) == Ok(AllImages(images))
  {
    var recs := RecordsOf(images, order);
    WritableRecordsOf(images, order);
    LoadDocument(recs);
    ImportAllValues(recs);
    ImportedEnumeration(images, order);
  }

  /** One more record at the end of the document: the whole-file map
      gains or replaces its path. */
  lemma CollectSnoc(vs: seq<Value>, v: Value)
    requires Collect(vs).Ok? && RecordDecodes(v)
    ensures Collect(vs + [v]) == Ok(Collect(vs).value[PathOf(v).value := ExtractPoints(v).value])
  {
    assert (vs + [v])[..|vs|] == vs;
    assert (vs + [v])[|vs|] == v;
  }

  lemma ImportedLast(recs: seq<Record>)
    requires |recs| > 0
    ensures Imported(recs) == Imported(recs[..|recs| - 1])[recs[|recs| - 1].path := recs[|recs| - 1].points]
  {
  }

  lemma SplitLast<T>(s: seq<T>)
    requires |s| > 0
    ensures s[..|s| - 1] + [s[|s| - 1]] == s
  {
  }

  lemma RecordValuesSnoc(recs: seq<Record>, rec: Record)
    ensures RecordValues(recs + [rec]) == RecordValues(recs) + [RecordValue(rec)]
  {
  }

  /** Whole-file import of written records, read back from their text. */
  lemma ImportAllAfterWrite(recs: seq<Record>)
    requires forall i :: 0 <= i < |recs| ==> Writable(recs[i])
    ensures Import.Import(Load(Document(recs)), None) == Ok(AllImages(Imported(recs)))
  {
    LoadDocument(recs);
    ImportAllValues(recs);
  }

  lemma WritableSnoc(recs: seq<Record>, rec: Record)
    requires forall i :: 0 <= i < |recs| ==> Writable(recs[i])
    requires Writable(rec)
    ensures forall i :: 0 <= i < |recs + [rec]| ==> Writable((recs + [rec])[i])
  {
  }

  lemma ImportedSnoc(recs: seq<Record>, rec: Record)
    ensures Imported(recs + [rec]) == Imported(recs)[rec.path := rec.points]
  {
    assert (recs + [rec])[..|recs|] == recs;
  }

  /** Whole-file import after `export`: the map read before, with the new
      record's path now holding the new points. */
  lemma ExportThenImportAll(recs: seq<Record>, rec: Record)
    requires forall i :: 0 <= i < |recs| ==> Writable(recs[i])
    requires Writable(rec)
    ensures Export.Export(Ok(Document(recs)), rec.path, rec.points) == Ok(Document(recs + [rec]))
    ensures Import.Import(Load(Document(recs + [rec])), None) == Ok(AllImages(Imported(recs)[rec.path := rec.points]))
  {
    ExportAppendsRecord(recs, rec);
    WritableSnoc(recs, rec);
    ImportAllAfterWrite(recs + [rec]);
    ImportedSnoc(recs, rec);
  }

  /** The lookup over written records' values stops at the first record
      whose path is the normalised query. */
  lemma FindRecordValue(recs: seq<Record>, query: string, k: int)
    requires 0 <= k < |recs| && recs[k].path == NormalizePath(query)
    requires forall j :: 0 <= j < k ==> recs[j].path != NormalizePath(query)
    ensures GetImageFromJson(Array(RecordValues(recs)), query) == Ok(RecordValue(recs[k]))
  {
    var vs := RecordValues(recs);
    AllDecode(recs);
    assert IsFirstMatch(vs, NormalizePath(query), k);
    var r := GetImageFromJson(Array(vs), query);
    var k' :| IsFirstMatch(vs, NormalizePath(query), k') && r.value == vs[k'];
    FirstMatchUnique(vs, NormalizePath(query), k, k');
  }

  /** Single-image `import` over written records' values. */
  lemma LookupValues(recs: seq<Record>, query: string, k: int)
    requires 0 <= k < |recs| && recs[k].path == NormalizePath(query)
    requires forall j :: 0 <= j < k ==> recs[j].path != NormalizePath(query)
    ensures Import.Import(Some(Array(RecordValues(recs))), Some(query)) == Ok(ImagePoints(recs[k].points))
  {
    FindRecordValue(recs, query, k);
    DecodeRecordValue(recs[k]);
  }

  /** Single-image import after writing: the points of the first record
      whose path is the query with back-slashes made slashes. */
  lemma LookupAfterWrite(recs: seq<Record>, query: string, k: int)
    requires forall i :: 0 <= i < |recs| ==> Writable(recs[i])
    requires 0 <= k < |recs| && recs[k].path == NormalizePath(query)
    requires forall j :: 0 <= j < k ==> recs[j].path != NormalizePath(query)
    ensures Import.Import(Load(Document(recs)), Some(query)) == Ok(ImagePoints(recs[k].points))
  {
    LoadDocument(recs);
    LookupValues(recs, query, k);
  }

  /** Single-image `import` over records' values fails when no record
      carries the normalised query as its path. */
  lemma LookupMissValues(recs: seq<Record>, query: string)
    requires forall j :: 0 <= j < |recs| ==> recs[j].path != NormalizePath(query)
    ensures Import.Import(Some(Array(RecordValues(recs))), Some(query)) == Err(ParseError)
  {
    var vs := RecordValues(recs);
    AllDecode(recs);
    assert forall k :: !IsFirstMatch(vs, NormalizePath(query), k);
  }

  /** Single-image import after writing fails when no record carries the
      normalised query as its path. */
  lemma LookupMissAfterWrite(recs: seq<Record>, query: string)
    requires forall i :: 0 <= i < |recs| ==> Writable(recs[i])
    requires forall j :: 0 <= j < |recs| ==> recs[j].path != NormalizePath(query)
    ensures Import.Import(Load(Document(recs)), Some(query)) == Err(ParseError)
  {
    LoadDocument(recs);
    LookupMissValues(recs, query);
  }

  /** Whole-file import of two written records sharing a path keeps the
      second. */
  lemma RepeatedPathLastWins(a: Record, b: Record)
    requires Writable(a) && Writable(b) && a.path == b.path
    ensures Import.Import(Load(Document([a, b])), None) == Ok(AllImages(map[a.path := b.points]))
  {
    assert Writable([a, b][0]) && Writable([a, b][1]);
    ImportAllAfterWrite([a, b]);
    ImportedPair([a, b]);
  }

  lemma ImportedPair(recs: seq<Record>)
    requires |recs| == 2 && recs[0].path == recs[1].path
    ensures Imported(recs) == map[recs[0].path := recs[1].points]
  {
    var m := Imported(recs);
    ImportedLastWins(recs, 1);
    assert forall p :: p in m ==> p == recs[0].path by {
      ImportedKeys(recs);
    }
    SingleKeyMap(m, recs[0].path, recs[1].points);
  }

  lemma SingleKeyMap<V>(m: map<string, V>, k: string, v: V)
    requires k in m && m[k] == v
    requires forall p :: p in m ==> p == k
    ensures m == map[k := v]
  {
  }

  /** The single-image lookup of a path written twice finds the first. */
  lemma RepeatedPathFirstFound(a: Record, b: Record)
    requires Writable(a) && Writable(b)
    ensures Import.Import(Load(Document([a, b])), Some(a.path)) == Ok(ImagePoints(a.points))
  {
    assert '\\' !in a.path by {
      assert forall i :: 0 <= i < |a.path| ==> IsPlainChar(a.path[i]);
    }
    NormalizePathFacts(a.path);
    assert Writable([a, b][0]) && Writable([a, b][1]);
    LookupAfterWrite([a, b], a.path, 0);
  }

  /** Exporting two records for the same image onto an empty file keeps
      both; the single-image lookup then answers with the FIRST record's
      points while the whole-file import keeps the SECOND's. */
  lemma RepeatedPathDiverges(a: Record, b: Record)
    requires Writable(a) && Writable(b) && a.path == b.path
    ensures Export.Export(Export.Export(Ok("[]"), a.path, a.points), b.path, b.points) == Ok(Document([a, b]))
    ensures Import.Import(Load(Document([a, b])), Some(a.path)) == Ok(ImagePoints(a.points))
    ensures Import.Import(Load(Document([a, b])), None) == Ok(AllImages(map[a.path := b.points]))
  {
    assert Export.Export(Export.Export(Ok("[]"), a.path, a.points), b.path, b.points) == Ok(Document([a, b])) by {
      ExportTwiceKeepsBoth(a, b);
    }
    assert Import.Import(Load(Document([a, b])), Some(a.path)) == Ok(ImagePoints(a.points)) by {
      RepeatedPathFirstFound(a, b);
    }
    assert Import.Import(Load(Document([a, b])), None) == Ok(AllImages(map[a.path := b.points])) by {
      RepeatedPathLastWins(a, b);
    }
  }

  /** No two records of `recs` share a path. */
  predicate DistinctPaths(recs: seq<Record>) {
    forall i, j :: 0 <= i < j < |recs| ==> recs[i].path != recs[j].path
  }

  /** No element of `s` occurs twice. */
  predicate Distinct<T(==)>(s: seq<T>) {
    forall i, j :: 0 <= i < j < |s| ==> s[i] != s[j]
  }

  /** Each element of a sequence without repeats occurs in it once. */
  lemma {:induction false} DistinctCounts<T>(s: seq<T>)
    requires Distinct(s)
    ensures forall x :: multiset(s)[x] == if x in s then 1 else 0
  {
    if |s| > 0 {
      var init := s[..|s| - 1];
      assert s == init + [s[|s| - 1]];
      assert Distinct(init);
      DistinctCounts(init);
      assert s[|s| - 1] !in init;
      assert multiset(s) == multiset(init) + multiset{s[|s| - 1]};
    }
  }

  /** Two sequences without repeats holding the same elements are
      permutations of each other. */
  lemma SameElements<T>(s: seq<T>, t: seq<T>)
    requires Distinct(s) && Distinct(t)
    requires forall x :: x in s <==> x in t
    ensures multiset(s) == multiset(t)
  {
    DistinctCounts(s);
    DistinctCounts(t);
    assert forall x :: multiset(s)[x] == multiset(t)[x];
  }

  /** Loading the whole file and writing the map back, when no path
      repeats: the records written are those that were read, each once, in
      the order the map is visited. */
  lemma ReloadKeepsRecords(recs: seq<Record>, order: seq<string>)
    requires forall i :: 0 <= i < |recs| ==> Writable(recs[i])
    requires DistinctPaths(recs) && |recs| > 0
    requires Enumerates(order, Imported(recs))
    ensures Import.Import(Load(Document(recs)), None) == Ok(AllImages(Imported(recs)))
    ensures ExportAll(Imported(recs), order) == Document(RecordsOf(Imported(recs), order))
    ensures multiset(RecordsOf(Imported(recs), order)) == multiset(recs)
  {
    assert Import.Import(Load(Document(recs)), None) == Ok(AllImages(Imported(recs))) by {
      ImportAllAfterWrite(recs);
    }
    assert |Imported(recs)| > 0 by {
      LastOfDistinct(recs, 0);
    }
    assert multiset(RecordsOf(Imported(recs), order)) == multiset(recs) by {
      ReloadPermutation(recs, order);
    }
  }

  /** With no repeated path, the records of the whole-file map, in any
      enumeration order, are a permutation of the records read. */
  lemma ReloadPermutation(recs: seq<Record>, order: seq<string>)
    requires DistinctPaths(recs)
    requires Enumerates(order, Imported(recs))
    ensures multiset(RecordsOf(Imported(recs), order)) == multiset(recs)
  {
    var out := RecordsOf(Imported(recs), order);
    assert forall x :: x in out <==> x in recs by {
      ReloadSameElements(recs, order);
    }
    assert Distinct(out) by {
      RecordsOfDistinct(Imported(recs), order);
    }
    assert Distinct(recs);
    SameElements(out, recs);
  }

  /** The records of an enumeration hold no repeat: their paths differ. */
  lemma RecordsOfDistinct(m: map<string, seq<Point>>, order: seq<string>)
    requires Enumerates(order, m)
    ensures Distinct(RecordsOf(m, order))
  {
    var out := RecordsOf(m, order);
    forall i, j | 0 <= i < j < |out| ensures out[i] != out[j] {
      assert out[i].path == order[i] && out[j].path == order[j];
    }
  }

  /** With no repeated path, the whole-file map's records are exactly the
      records read. */
  lemma ReloadSameElements(recs: seq<Record>, order: seq<string>)
    requires DistinctPaths(recs)
    requires Enumerates(order, Imported(recs))
    ensures forall x :: x in RecordsOf(Imported(recs), order) <==> x in recs
  {
    var m := Imported(recs);
    var out := RecordsOf(m, order);
    forall x ensures x in out <==> x in recs {
      if x in out {
        var i :| 0 <= i < |out| && out[i] == x;
        assert order[i] in m;
        ImportedKeys(recs);
        var j :| 0 <= j < |recs| && recs[j].path == order[i];
        LastOfDistinct(recs, j);
        assert x == recs[j];
      }
      if x in recs {
        var j :| 0 <= j < |recs| && recs[j] == x;
        LastOfDistinct(recs, j);
        var i :| 0 <= i < |order| && order[i] == x.path;
        assert out[i] == x;
      }
    }
  }

  /** With no repeated path, each record's path maps to its own points. */
  lemma LastOfDistinct(recs: seq<Record>, j: int)
    requires DistinctPaths(recs) && 0 <= j < |recs|
    ensures recs[j].path in Imported(recs) && Imported(recs)[recs[j].path] == recs[j].points
  {
    ImportedLastWins(recs, j);
  }

  /** Loading the whole file and writing the map back, when a path
      repeats: of two records sharing a path, only the second is written
      back, so the file loses a record. */
  lemma ReloadDropsRepeated(a: Record, b: Record)
    requires Writable(a) && Writable(b) && a.path == b.path
    ensures Import.Import(Load(Document([a, b])), None) == Ok(AllImages(map[a.path := b.points]))
    ensures ExportAll(map[a.path := b.points], [a.path]) == Document([Record(a.path, b.points)])
    ensures multiset(RecordsOf(map[a.path := b.points], [a.path])) != multiset([a, b])
  {
    RepeatedPathLastWins(a, b);
    var m := map[a.path := b.points];
    assert Enumerates([a.path], m);
    assert |m| == 1 by {
      assert m.Keys == {a.path};
    }
    assert RecordsOf(m, [a.path]) == [Record(a.path, b.points)];
  }
}

=== FILE: results.dfy ===
/** Failure-compatible result type used in place of the source's panics and
    `Result<_, String>` returns. The message plays the role of the panic text
    or of the error string. */
module Results {

  datatype Option<+T> = None | Some(value: T)

  datatype Result<+T> = Ok(value: T) | Err(msg: string) {

    predicate IsFailure() {
      Err?
    }

    function PropagateFailure<U>(): Result<U>
      requires Err?
    {
      Err(msg)
    }

    function Extract(): T
      requires Ok?
    {
      value
    }
  }
}

=== FILE: roundtrip.dfy ===
/** The writers' text read back: the documents `serialize`, `export_all`
    and `export` produce parse to the JSON values the decoder expects, and
    decoding them gives back the records that were written. */
module RoundTrip {
  import opened Results
  import opened Primitives
  import opened Points
  import opened Json
  import opened JsonText
  import opened Import
  import opened Export

  /** The JSON value of one point as the writers lay it out. */
  function PointValue(p: Point): Value {
    Object(map["x" := UInt(p.X()), "y" := UInt(p.Y()), "n" := UInt(p.n)])
  }

  function PointValues(pts: seq<Point>): (r: seq<Value>)
    ensures |r| == |pts|
    ensures forall i :: 0 <= i < |pts| ==> r[i] == PointValue(pts[i])
  {
    if |pts| == 0 then [] else [PointValue(pts[0])] + PointValues(pts[1..])
  }

  /** The members of one point object, after its `{`. */
  lemma PointMembersText(dx: string, dy: string, dn: string, rest: string)
    ensures ("{ \"x\": " + dx + ", \"y\": " + dy + ", \"n\": " + dn + " }") + rest ==
      "{" + (" " + PointMembers(dx, dy, dn, rest))
  {
  }

  lemma MembersAfterSpace(k: string, acc: map<string, Value>)
    requires |k| > 0 && k[0] == '"'
    ensures ParseMembers(" " + k, acc) == ParseMember(k, acc)
  {
    SkipWsPrefix(" ", k);
    SkipWsStops(k);
  }

  lemma SpacedDecimal(n: nat, t: string)
    requires n < TWO_64
    requires |t| > 0 ==> !Decimal.IsDigit(t[0]) && t[0] != '.' && t[0] != 'e' && t[0] != 'E'
    ensures ParseValue((" " + Decimal.Dec(n)) + t) == Ok((UInt(n), t))
  {
    var d := Decimal.Dec(n);
    assert (" " + d) + t == " " + (d + t);
    ParseValueAfterWs(" ", d + t);
    ParseDecimalText(n, t);
  }

  /** The last member of a point object: `"n": N }`. */
  lemma ParsePointLastMember(n: nat, rest: string, acc: map<string, Value>)
    requires n < TWO_64
    ensures ParseMembers(" " + ("\"" + ("n" + ("\"" + (":" + ((" " + Decimal.Dec(n)) + (" " + ("}" + rest))))))), acc)
         == Ok((Object(acc["n" := UInt(n)]), rest))
  {
    var dn := Decimal.Dec(n);
    var k := "\"" + ("n" + ("\"" + (":" + ((" " + dn) + (" " + ("}" + rest))))));
    MembersAfterSpace(k, acc);
    SpacedDecimal(n, " " + ("}" + rest));
    ParseMemberLast("n", " " + dn, UInt(n), " ", rest, acc);
  }

  /** A middle member of a point object: `"key": N,` and what follows. */
  lemma ParsePointMember(key: string, v: nat, more: string, acc: map<string, Value>)
    requires v < TWO_64 && IsPlain(key)
    ensures ParseMembers(" " + ("\"" + (key + ("\"" + (":" + ((" " + Decimal.Dec(v)) + ("," + more)))))), acc)
         == ParseMembers(more, acc[key := UInt(v)])
  {
    var d := Decimal.Dec(v);
    var k := "\"" + (key + ("\"" + (":" + ((" " + d) + ("," + more)))));
    MembersAfterSpace(k, acc);
    SpacedDecimal(v, "," + more);
    ParseMemberThen(key, " " + d, UInt(v), more, acc);
  }

  /** An object whose first member follows whitespace after the brace. */
  lemma ObjectMembers(w: string, k: string)
    requires AllWs(w) && |k| > 0 && k[0] == '"'
    ensures ParseObject(w + k) == ParseMembers(w + k, map[])
  {
    SkipWsPrefix(w, k);
    SkipWsStops(k);
  }

  /** An object whose first member follows a space after the brace. */
  lemma ObjectOpen(k: string)
    requires |k| > 0 && k[0] == '"'
    ensures ParseValue("{" + (" " + k)) == ParseMembers(" " + k, map[])
  {
    ValueOfBrace(" " + k);
    ObjectMembers(" ", k);
  }

  /** The text after a point's opening brace: its three members. */
  function PointMembers(dx: string, dy: string, dn: string, rest: string): string {
    var m2 := " " + ("\"" + ("n" + ("\"" + (":" + ((" " + dn) + (" " + ("}" + rest)))))));
    var m1 := " " + ("\"" + ("y" + ("\"" + (":" + ((" " + dy) + ("," + m2))))));
    "\"" + ("x" + ("\"" + (":" + ((" " + dx) + ("," + m1)))))
  }

  /** A point's three members read back as the point's object. */
  lemma ParsePointMembers(p: Point, rest: string)
    ensures ParseMembers(" " + PointMembers(Decimal.Dec(p.X()), Decimal.Dec(p.Y()), Decimal.Dec(p.n), rest), map[])
         == Ok((PointValue(p), rest))
  {
    var dx, dy, dn := Decimal.Dec(p.X()), Decimal.Dec(p.Y()), Decimal.Dec(p.n);
    var m2 := " " + ("\"" + ("n" + ("\"" + (":" + ((" " + dn) + (" " + ("}" + rest)))))));
    var m1 := " " + ("\"" + ("y" + ("\"" + (":" + ((" " + dy) + ("," + m2))))));
    ParsePointMember("x", p.X(), m1, map[]);
    ParsePointMember("y", p.Y(), m2, map["x" := UInt(p.X())]);
    ParsePointLastMember(p.n, rest, map["x" := UInt(p.X())]["y" := UInt(p.Y())]);
    assert map["x" := UInt(p.X())]["y" := UInt(p.Y())]["n" := UInt(p.n)] == PointValue(p).fields;
  }

  /** A point's text reads back as the point's JSON object. */
  lemma ParsePointText(p: Point, rest: string)
    ensures ParseValue(PointText(p) + rest) == Ok((PointValue(p), rest))
  {
    var dx, dy, dn := Decimal.Dec(p.X()), Decimal.Dec(p.Y()), Decimal.Dec(p.n);
    var k0 := PointMembers(dx, dy, dn, rest);
    assert PointText(p) == "{ \"x\": " + dx + ", \"y\": " + dy + ", \"n\": " + dn + " }";
    PointMembersText(dx, dy, dn, rest);
    ObjectOpen(k0);
    ParsePointMembers(p, rest);
  }

  /** `c` is the text of `v`, whatever follows it. */
  ghost predicate ReadsAs(c: string, v: Value) {
    forall rest: string :: ParseValue(c + rest) == Ok((v, rest))
  }

  /** Each text of `cs` is the text of the value at the same place. */
  ghost predicate AllReadAs(cs: seq<string>, vs: seq<Value>) {
    |cs| == |vs| && forall k :: 0 <= k < |cs| ==> ReadsAs(cs[k], vs[k])
  }

  /** The last element of an array and its closing bracket. */
  lemma ElementsLast(c: string, v: Value, close: string, tail: string, acc: seq<Value>)
    requires ReadsAs(c, v) && AllWs(close)
    ensures ParseElements(c + (close + ("]" + tail)), acc) == Ok((Array(acc + [v]), tail))
  {
    var x := close + ("]" + tail);
    assert ParseValue(c + x) == Ok((v, x));
    ElementsRestClose(close, tail, acc + [v]);
  }

  /** An element followed by a comma and more elements. */
  lemma ElementsNext(c: string, v: Value, more: string, acc: seq<Value>)
    requires ReadsAs(c, v)
    ensures ParseElements(c + ("," + more), acc) == ParseElements(more, acc + [v])
  {
    assert ParseValue(c + ("," + more)) == Ok((v, "," + more));
    ElementsRestComma(more, acc + [v]);
  }

  /** Element texts joined by a comma and whitespace, then the closing
      bracket, read back as the array of their values. */
  lemma {:induction false} ParseElementsJoin(cs: seq<string>, vs: seq<Value>, sep: string, close: string, tail: string, acc: seq<Value>)
    requires |cs| > 0 && AllReadAs(cs, vs)
    requires AllWs(sep) && AllWs(close)
    ensures ParseElements(Join("," + sep, cs) + (close + ("]" + tail)), acc) == Ok((Array(acc + vs), tail))
  {
    if |cs| == 1 {
      JoinSingle(cs, vs, sep, close, tail, acc);
    } else {
      var x := close + ("]" + tail);
      JoinStep(cs, vs, sep, x, acc);
      ParseElementsJoin(cs[1..], vs[1..], sep, close, tail, acc + [vs[0]]);
      assert acc + [vs[0]] + vs[1..] == acc + vs;
    }
  }

  lemma JoinSingle(cs: seq<string>, vs: seq<Value>, sep: string, close: string, tail: string, acc: seq<Value>)
    requires |cs| == 1 && AllReadAs(cs, vs)
    requires AllWs(close)
    ensures ParseElements(Join("," + sep, cs) + (close + ("]" + tail)), acc) == Ok((Array(acc + vs), tail))
  {
    assert Join("," + sep, cs) == cs[0];
    AllReadAsTail(cs, vs);
    ElementsLast(cs[0], vs[0], close, tail, acc);
    assert acc + [vs[0]] == acc + vs;
  }

  /** Reading the first element and the comma and whitespace after it. */
  lemma JoinStep(cs: seq<string>, vs: seq<Value>, sep: string, x: string, acc: seq<Value>)
    requires |cs| > 1 && AllReadAs(cs, vs)
    requires AllWs(sep)
    ensures AllReadAs(cs[1..], vs[1..])
    ensures ParseElements(Join("," + sep, cs) + x, acc)
         == ParseElements(Join("," + sep, cs[1..]) + x, acc + [vs[0]])
  {
    var j := Join("," + sep, cs[1..]);
    var more := sep + (j + x);
    JoinCons(cs, "," + sep, x);
    assert ("," + sep) + (j + x) == "," + more;
    AllReadAsTail(cs, vs);
    ElementsNext(cs[0], vs[0], more, acc);
    ParseElementsAfterWs(sep, j + x, acc + [vs[0]]);
  }

  /** The first of several joined items, then the rest. */
  lemma JoinCons(xs: seq<string>, sep: string, x: string)
    requires |xs| > 1
    ensures Join(sep, xs) + x == xs[0] + (sep + (Join(sep, xs[1..]) + x))
  {
  }

  lemma AllReadAsTail(cs: seq<string>, vs: seq<Value>)
    requires |cs| > 0 && AllReadAs(cs, vs)
    ensures ReadsAs(cs[0], vs[0]) && AllReadAs(cs[1..], vs[1..])
  {
    forall k | 0 <= k < |cs| - 1 ensures ReadsAs(cs[1..][k], vs[1..][k]) {
      assert ReadsAs(cs[k + 1], vs[k + 1]);
    }
  }

  /** An array whose first element, after whitespace, opens with `{`. */
  lemma ArrayOpen(w: string, z: string)
    requires AllWs(w)
    ensures ParseArray(w + ("{" + z)) == ParseElements(w + ("{" + z), [])
  {
    SkipWsPrefix(w, "{" + z);
    SkipWsStops("{" + z);
    ParseElementsAfterWs(w, "{" + z, []);
  }

  lemma PointTextReadsAs(p: Point)
    ensures ReadsAs(PointText(p), PointValue(p))
  {
    forall rest: string ensures ParseValue(PointText(p) + rest) == Ok((PointValue(p), rest)) {
      ParsePointText(p, rest);
    }
  }

  lemma PointTextsReadAs(pts: seq<Point>)
    ensures AllReadAs(PointTexts(pts), PointValues(pts))
  {
    forall k | 0 <= k < |pts| ensures ReadsAs(PointTexts(pts)[k], PointValues(pts)[k]) {
      PointTextReadsAs(pts[k]);
    }
  }

  /** A joined text starts with its first item. */
  lemma {:induction false} JoinStartsWith(sep: string, xs: seq<string>)
    requires |xs| > 0
    ensures |Join(sep, xs)| >= |xs[0]| && Join(sep, xs)[..|xs[0]|] == xs[0]
  {
    if |xs| > 1 {
      assert Join(sep, xs) == xs[0] + (sep + Join(sep, xs[1..]));
    }
  }

  /** An array whose first element text opens with `{`. */
  lemma ArrayOpenBrace(j: string, t: string)
    requires |j| > 0 && j[0] == '{'
    ensures ParseArray(j + t) == ParseElements(j + t, [])
  {
    var z := j[1..] + t;
    assert j + t == "" + ("{" + z);
    ArrayOpen("", z);
  }

  /** The serialised points open with the first point's `{`. */
  lemma PointsOpenBrace(pts: seq<Point>)
    requires |pts| > 0
    ensures |Join(", ", PointTexts(pts))| > 0 && Join(", ", PointTexts(pts))[0] == '{'
  {
    var ts := PointTexts(pts);
    JoinStartsWith(", ", ts);
    assert ts[0][0] == '{';
  }

  /** The serialised points of a non-empty list, after the `[`, read back
      as the array of their values. */
  lemma ParsePointsArray(pts: seq<Point>, tail: string)
    requires |pts| > 0
    ensures ParseArray(Join(", ", PointTexts(pts)) + ("]" + tail)) == Ok((Array(PointValues(pts)), tail))
  {
    assert "," + " " == ", ";
    assert "" + ("]" + tail) == "]" + tail;
    PointsOpenBrace(pts);
    ArrayOpenBrace(Join(", ", PointTexts(pts)), "]" + tail);
    PointTextsReadAs(pts);
    ParseElementsJoin(PointTexts(pts), PointValues(pts), " ", "", tail, []);
    assert [] + PointValues(pts) == PointValues(pts);
  }

  /** A record as `serialize` lays it out, with every line after the first
      further indented by `ind`: `serialize` itself has `ind == ""`, and
      the indented copy inside a document has four spaces. */
  function RecordLayout(ind: string, path: string, items: string): string {
    "{" + ("\n" + ind) + "    \"path\": \"" + path + "\"," + ("\n" + ind) + "    \"points\": [" + items + "]" + ("\n" + ind) + "}"
  }

  lemma SerializeLayout(path: string, pts: seq<Point>)
    requires |pts| > 0
    ensures Serialize(path, pts) == RecordLayout("", path, Join(", ", PointTexts(pts)))
  {
    var j := Join(", ", PointTexts(pts));
    var o, nl, pk, cm, ok, cb, cl := "{", "\n" + "", "    \"path\": \"", "\",", "    \"points\": [", "]", "}";
    SerializePieces();
    assert Serialize(path, pts) == (o + nl + pk) + path + (cm + nl) + ok + j + (cb + nl + cl);
    HeadItemsClose(o, nl, pk, path, cm, ok, j, cb, cl);
  }

  lemma SerializePieces()
    ensures "{" + ("\n" + "") + "    \"path\": \"" == "{\n    \"path\": \""
    ensures "\"," + ("\n" + "") == "\",\n"
    ensures "]" + ("\n" + "") + "}" == "]\n}"
  {
  }

  lemma NewlineReplaced()
    ensures ReplaceNewlines("\n" + "") == "\n" + "    "
  {
    assert "\n" + "" == "\n";
    assert "\n"[1..] == "";
  }

  /** The fixed pieces of a record's layout, other than its line breaks,
      hold no line break. */
  lemma BracesReplaced()
    ensures ReplaceNewlines("{") == "{" && ReplaceNewlines("]") == "]" && ReplaceNewlines("}") == "}"
  {
    ReplaceNewlinesPlain("{");
    ReplaceNewlinesPlain("]");
    ReplaceNewlinesPlain("}");
  }

  lemma PathKeyReplaced()
    ensures ReplaceNewlines("    \"path\": \"") == "    \"path\": \""
    ensures ReplaceNewlines("\",") == "\","
  {
    ReplaceNewlinesPlain("    \"path\": \"");
    ReplaceNewlinesPlain("\",");
  }

  lemma PointsKeyReplaced()
    ensures ReplaceNewlines("    \"points\": [") == "    \"points\": ["
  {
    ReplaceNewlinesPlain("    \"points\": [");
  }

  /** Indenting a record's text indents each of its lines; the path and
      the items hold no line break of their own. */
  lemma IndentLayout(path: string, items: string)
    requires '\n' !in path && '\n' !in items
    ensures Indent(RecordLayout("", path, items)) == "    " + RecordLayout("    ", path, items)
  {
    var nl := "\n" + "";
    var l := RecordLayout("", path, items);
    assert Indent(l) == "    " + ReplaceNewlines(l);
    NewlineReplaced();
    BracesReplaced();
    PathKeyReplaced();
    PointsKeyReplaced();
    ReplaceNewlinesPlain(path);
    ReplaceNewlinesPlain(items);
    ReplaceNewlinesPieces("{", nl, "    \"path\": \"", path, "\",", nl, "    \"points\": [", items, "]", nl, "}");
  }

  /** `ReplaceNewlines` piece by piece over eleven pieces. */
  lemma ReplaceNewlinesPieces(a1: string, a2: string, a3: string, a4: string, a5: string, a6: string, a7: string, a8: string, a9: string, a10: string, a11: string)
    ensures ReplaceNewlines(a1 + a2 + a3 + a4 + a5 + a6 + a7 + a8 + a9 + a10 + a11)
         == ReplaceNewlines(a1) + ReplaceNewlines(a2) + ReplaceNewlines(a3) + ReplaceNewlines(a4) + ReplaceNewlines(a5) + ReplaceNewlines(a6)
          + ReplaceNewlines(a7) + ReplaceNewlines(a8) + ReplaceNewlines(a9) + ReplaceNewlines(a10) + ReplaceNewlines(a11)
  {
    ReplaceNewlinesConcat(a1, a2);
    ReplaceNewlinesConcat(a1 + a2, a3);
    ReplaceNewlinesConcat(a1 + a2 + a3, a4);
    ReplaceNewlinesConcat(a1 + a2 + a3 + a4, a5);
    ReplaceNewlinesConcat(a1 + a2 + a3 + a4 + a5, a6);
    ReplaceNewlinesConcat(a1 + a2 + a3 + a4 + a5 + a6, a7);
    ReplaceNewlinesConcat(a1 + a2 + a3 + a4 + a5 + a6 + a7, a8);
    ReplaceNewlinesConcat(a1 + a2 + a3 + a4 + a5 + a6 + a7 + a8, a9);
    ReplaceNewlinesConcat(a1 + a2 + a3 + a4 + a5 + a6 + a7 + a8 + a9, a10);
    ReplaceNewlinesConcat(a1 + a2 + a3 + a4 + a5 + a6 + a7 + a8 + a9 + a10, a11);
  }

  lemma {:induction false} ReplaceNewlinesConcat(a: string, b: string)
    ensures ReplaceNewlines(a + b) == ReplaceNewlines(a) + ReplaceNewlines(b)
  {
    if |a| > 0 {
      assert (a + b)[0] == a[0] && (a + b)[1..] == a[1..] + b;
      ReplaceNewlinesConcat(a[1..], b);
    } else {
      assert a + b == b;
    }
  }

  lemma {:induction false} ReplaceNewlinesPlain(s: string)
    requires '\n' !in s
    ensures ReplaceNewlines(s) == s
  {
    if |s| > 0 {
      ReplaceNewlinesPlain(s[1..]);
      assert [s[0]] + s[1..] == s;
    }
  }

  lemma {:induction false} AllWsConcat(a: string, b: string)
    requires AllWs(a) && AllWs(b)
    ensures AllWs(a + b)
  {
    assert forall i :: |a| <= i < |a + b| ==> (a + b)[i] == b[i - |a|];
  }

  /** Members after whitespace: the whitespace is skipped. */
  lemma MembersAfterWs(w: string, k: string, acc: map<string, Value>)
    requires AllWs(w) && |k| > 0 && k[0] == '"'
    ensures ParseMembers(w + k, acc) == ParseMember(k, acc)
  {
    SkipWsPrefix(w, k);
    SkipWsStops(k);
  }

  /** A space, then a quoted plain string. */
  lemma SpacedString(p: string, t: string)
    requires IsPlain(p)
    ensures ParseValue((" " + ("\"" + (p + "\""))) + t) == Ok((Str(p), t))
  {
    assert (" " + ("\"" + (p + "\""))) + t == " " + ("\"" + p + "\"" + t);
    ParseValueAfterWs(" ", "\"" + p + "\"" + t);
    ParseStringText(p, t);
  }

  /** A space, then an array whose items text reads as `vs`. */
  lemma SpacedArray(items: string, vs: seq<Value>, t: string)
    requires ParseArray(items + ("]" + t)) == Ok((Array(vs), t))
    ensures ParseValue((" " + ("[" + (items + "]"))) + t) == Ok((Array(vs), t))
  {
    Assoc4(" ", "[", items, "]", t);
    ParseValueAfterWs(" ", "[" + (items + ("]" + t)));
    ValueOfBracket(items + ("]" + t));
  }

  /** The key texts of the layout, split at the places the reader stops. */
  lemma LayoutKeyPieces()
    ensures "    \"path\": \"" == "    " + ("\"" + ("path" + ("\"" + (":" + (" " + "\"")))))
    ensures "    \"points\": [" == "    " + ("\"" + ("points" + ("\"" + (":" + (" " + "[")))))
  {
  }

  /** The layout of a record followed by `rest`, regrouped member by member. */
  lemma LayoutNested(ind: string, path: string, items: string, rest: string)
    ensures RecordLayout(ind, path, items) + rest ==
      "{" + ((("\n" + ind) + "    ") + ("\"" + ("path" + ("\"" + (":" + ((" " + ("\"" + (path + "\""))) + ("," + ((("\n" + ind) + "    ") + ("\"" + ("points" + ("\"" + (":" + ((" " + ("[" + (items + "]"))) + (("\n" + ind) + ("}" + rest)))))))))))))))
  {
    LayoutKeyPieces();
    LayoutRegroup("{", "\n" + ind, "    ", "\"", "path", ":", " ", path, ",", "points", "[", items, "]", "}", rest);
  }

  /** An object opened by `{` and whitespace, up to its first key. */
  lemma ObjectOpenWs(b: string, k: string)
    requires AllWs(b) && |k| > 0 && k[0] == '"'
    ensures ParseValue("{" + (b + k)) == ParseMember(k, map[])
  {
    ValueOfBrace(b + k);
    ObjectMembers(b, k);
    MembersAfterWs(b, k, map[]);
  }

  /** The `"path"` member of a record, followed by whitespace and the
      next key. */
  lemma PathMember(path: string, b: string, k: string)
    requires IsPlain(path) && AllWs(b) && |k| > 0 && k[0] == '"'
    ensures ParseMember("\"" + ("path" + ("\"" + (":" + ((" " + ("\"" + (path + "\""))) + ("," + (b + k)))))), map[])
         == ParseMember(k, map["path" := Str(path)])
  {
    SpacedString(path, "," + (b + k));
    ParseMemberThen("path", " " + ("\"" + (path + "\"")), Str(path), b + k, map[]);
    MembersAfterWs(b, k, map["path" := Str(path)]);
  }

  /** The `"points"` member closing a record. */
  lemma PointsMember(items: string, vs: seq<Value>, w: string, rest: string, acc: map<string, Value>)
    requires AllWs(w)
    requires ParseArray(items + ("]" + (w + ("}" + rest)))) == Ok((Array(vs), w + ("}" + rest)))
    ensures ParseMember("\"" + ("points" + ("\"" + (":" + ((" " + ("[" + (items + "]"))) + (w + ("}" + rest)))))), acc)
         == Ok((Object(acc["points" := Array(vs)]), rest))
  {
    SpacedArray(items, vs, w + ("}" + rest));
    ParseMemberLast("points", " " + ("[" + (items + "]")), Array(vs), w, rest, acc);
  }

  /** A record in the writers' layout, whatever its extra indentation,
      reads back as the object of its path and points. */
  lemma ParseRecordLayout(ind: string, path: string, items: string, vs: seq<Value>, rest: string)
    requires AllWs(ind) && IsPlain(path)
    requires ParseArray(items + ("]" + (("\n" + ind) + ("}" + rest)))) == Ok((Array(vs), ("\n" + ind) + ("}" + rest)))
    ensures ParseValue(RecordLayout(ind, path, items) + rest)
         == Ok((Object(map["path" := Str(path), "points" := Array(vs)]), rest))
  {
    var w := "\n" + ind;
    var b := w + "    ";
    var k2 := "\"" + ("points" + ("\"" + (":" + ((" " + ("[" + (items + "]"))) + (w + ("}" + rest))))));
    var k1 := "\"" + ("path" + ("\"" + (":" + ((" " + ("\"" + (path + "\""))) + ("," + (b + k2))))));
    LayoutNested(ind, path, items, rest);
    assert AllWs("\n") && AllWs("    ");
    AllWsConcat("\n", ind);
    AllWsConcat(w, "    ");
    ObjectOpenWs(b, k1);
    PathMember(path, b, k2);
    PointsMember(items, vs, w, rest, map["path" := Str(path)]);
  }

  /** The JSON value of one record as the writers lay it out. */
  function RecordValue(rec: Record): Value {
    Object(map["path" := Str(rec.path), "points" := Array(PointValues(rec.points))])
  }

  function RecordValues(recs: seq<Record>): (r: seq<Value>)
    ensures |r| == |recs|
    ensures forall i :: 0 <= i < |recs| ==> r[i] == RecordValue(recs[i])
  {
    if |recs| == 0 then [] else [RecordValue(recs[0])] + RecordValues(recs[1..])
  }

  /** A record the writers render as readable JSON: its path needs no
      escaping and it has at least one point (with none, `serialize` writes
      `"points":]`). */
  predicate Writable(rec: Record) {
    IsPlain(rec.path) && |rec.points| > 0
  }

  lemma PointTextNoBreak(p: Point)
    ensures '\n' !in PointText(p)
  {
    assert Decimal.AllDigits(Decimal.Dec(p.X()));
    assert Decimal.AllDigits(Decimal.Dec(p.Y()));
    assert Decimal.AllDigits(Decimal.Dec(p.n));
  }

  lemma {:induction false} ItemsNoBreak(pts: seq<Point>)
    ensures '\n' !in Join(", ", PointTexts(pts))
  {
    if |pts| > 0 {
      PointTextNoBreak(pts[0]);
      if |pts| > 1 {
        assert PointTexts(pts)[1..] == PointTexts(pts[1..]);
        ItemsNoBreak(pts[1..]);
      }
    }
  }

  /** `serialize` text of a writable record reads back as its JSON value. */
  lemma ParseSerialized(rec: Record, rest: string)
    requires Writable(rec)
    ensures ParseValue(Serialize(rec.path, rec.points) + rest) == Ok((RecordValue(rec), rest))
  {
    var items := Join(", ", PointTexts(rec.points));
    SerializeLayout(rec.path, rec.points);
    ParsePointsArray(rec.points, ("\n" + "") + ("}" + rest));
    assert AllWs("");
    ParseRecordLayout("", rec.path, items, PointValues(rec.points), rest);
  }

  /** The indented copy of a record inside a document. */
  lemma RecordTextLayout(rec: Record)
    requires Writable(rec)
    ensures RecordText(rec) == "    " + RecordLayout("    ", rec.path, Join(", ", PointTexts(rec.points)))
  {
    var items := Join(", ", PointTexts(rec.points));
    SerializeLayout(rec.path, rec.points);
    ItemsNoBreak(rec.points);
    assert '\n' !in rec.path by {
      assert forall i :: 0 <= i < |rec.path| ==> IsPlainChar(rec.path[i]);
    }
    IndentLayout(rec.path, items);
  }

  lemma ParseIndentedLayout(path: string, items: string, vs: seq<Value>, rest: string)
    requires IsPlain(path)
    requires ParseArray(items + ("]" + (("\n" + "    ") + ("}" + rest)))) == Ok((Array(vs), ("\n" + "    ") + ("}" + rest)))
    ensures ParseValue(("    " + RecordLayout("    ", path, items)) + rest)
         == Ok((Object(map["path" := Str(path), "points" := Array(vs)]), rest))
  {
    var l := RecordLayout("    ", path, items);
    assert ("    " + l) + rest == "    " + (l + rest);
    assert AllWs("    ");
    ParseValueAfterWs("    ", l + rest);
    ParseRecordLayout("    ", path, items, vs, rest);
  }

  /** The indented record inside a document reads back as its JSON value. */
  lemma ParseRecordText(rec: Record, rest: string)
    requires Writable(rec)
    ensures ParseValue(RecordText(rec) + rest) == Ok((RecordValue(rec), rest))
  {
    var items := Join(", ", PointTexts(rec.points));
    RecordTextLayout(rec);
    ParsePointsArray(rec.points, ("\n" + "    ") + ("}" + rest));
    ParseIndentedLayout(rec.path, items, PointValues(rec.points), rest);
  }

  lemma RecordTextReadsAs(rec: Record)
    requires Writable(rec)
    ensures ReadsAs(RecordText(rec), RecordValue(rec))
  {
    forall rest: string ensures ParseValue(RecordText(rec) + rest) == Ok((RecordValue(rec), rest)) {
      ParseRecordText(rec, rest);
    }
  }

  lemma RecordTextsReadAs(recs: seq<Record>)
    requires forall i :: 0 <= i < |recs| ==> Writable(recs[i])
    ensures AllReadAs(RecordTexts(recs), RecordValues(recs))
  {
    var cs, vs := RecordTexts(recs), RecordValues(recs);
    forall k | 0 <= k < |recs| ensures ReadsAs(cs[k], vs[k]) {
      assert cs[k] == RecordText(recs[k]) && vs[k] == RecordValue(recs[k]);
      RecordTextReadsAs(recs[k]);
    }
  }

  /** A record's indented text opens with four spaces and its brace. */
  lemma RecordTextOpens(rec: Record)
    requires Writable(rec)
    ensures |RecordText(rec)| >= 5 && RecordText(rec)[..5] == "    {"
  {
    RecordTextLayout(rec);
  }

  /** An array whose first element text opens with four spaces and a
      brace, after a line break. */
  lemma ArrayOpenIndented(j: string, t: string)
    requires |j| >= 5 && j[..5] == "    {"
    ensures ParseArray("\n" + (j + t)) == ParseElements(j + t, [])
  {
    var z := j[5..] + t;
    assert "\n" + (j + t) == ("\n" + "    ") + ("{" + z);
    assert AllWs("\n" + "    ");
    ArrayOpen("\n" + "    ", z);
    assert AllWs("\n");
    ParseElementsAfterWs("\n", j + t, []);
  }

  lemma LayoutNestedText(texts: seq<string>, tail: string)
    requires |texts| > 0
    ensures Layout(texts) + tail == "[" + ("\n" + (Join("," + "\n", texts) + ("\n" + ("]" + tail))))
  {
    var sep := "," + "\n";
    assert sep == ",\n";
    var j := Join(sep, texts);
    assert "[\n" == "[" + "\n" && "\n]" == "\n" + "]";
    assert Layout(texts) == ("[" + "\n") + j + ("\n" + "]");
    Regroup5("[", "\n", j, "\n", "]", tail);
  }

  /** A document array, after its bracket, from its first element on. */
  lemma DocumentArrayOpen(j: string, x: string)
    requires |j| >= 5 && j[..5] == "    {"
    ensures ParseValue("[" + ("\n" + (j + x))) == ParseElements(j + x, [])
  {
    ValueOfBracket("\n" + (j + x));
    ArrayOpenIndented(j, x);
  }

  /** The writers' layout of element texts that read as `vs`. */
  lemma ParseLayoutValue(texts: seq<string>, vs: seq<Value>, tail: string)
    requires |texts| > 0 && AllReadAs(texts, vs)
    requires |texts[0]| >= 5 && texts[0][..5] == "    {"
    ensures ParseValue(Layout(texts) + tail) == Ok((Array(vs), tail))
  {
    var j := Join("," + "\n", texts);
    LayoutNestedText(texts, tail);
    JoinStartsWith("," + "\n", texts);
    DocumentArrayOpen(j, "\n" + ("]" + tail));
    ParseElementsJoin(texts, vs, "\n", "\n", tail, []);
    assert [] + vs == vs;
  }

  lemma ParseEmptyArray(tail: string)
    ensures ParseValue(Layout([]) + tail) == Ok((Array([]), tail))
  {
    assert Layout([]) + tail == "[" + ("]" + tail);
    ValueOfBracket("]" + tail);
    SkipWsStops("]" + tail);
  }

  /** A value followed by nothing is the whole document. */
  lemma WholeDocument(d: string, v: Value)
    requires ParseValue(d) == Ok((v, []))
    ensures ParseDocument(d) == Ok(v)
  {
    assert SkipWs([]) == [];
  }

  lemma ParseDocumentValue(recs: seq<Record>, tail: string)
    requires forall i :: 0 <= i < |recs| ==> Writable(recs[i])
    ensures ParseValue(Document(recs) + tail) == Ok((Array(RecordValues(recs)), tail))
  {
    if |recs| == 0 {
      ParseEmptyArray(tail);
      assert RecordValues(recs) == [];
    } else {
      RecordTextOpens(recs[0]);
      RecordTextsReadAs(recs);
      ParseLayoutValue(RecordTexts(recs), RecordValues(recs), tail);
    }
  }

  /** The document text of writable records reads back as the array of
      their JSON values. */
  lemma ParseDocumentText(recs: seq<Record>)
    requires forall i :: 0 <= i < |recs| ==> Writable(recs[i])
    ensures ParseDocument(Document(recs)) == Ok(Array(RecordValues(recs)))
  {
    var tail: string := [];
    ParseDocumentValue(recs, tail);
    assert Document(recs) + tail == Document(recs);
    WholeDocument(Document(recs), Array(RecordValues(recs)));
  }

  // Helper lemmas: regrouping of string concatenation, so that the
  // proofs above can hand the reader its input piece by piece.

  lemma HeadItemsClose(o: string, nl: string, pk: string, path: string, cm: string, ok: string,
                       j: string, cb: string, cl: string)
    ensures (o + nl + pk) + path + (cm + nl) + ok + j + (cb + nl + cl)
         == o + nl + pk + path + cm + nl + ok + j + cb + nl + cl
  {
  }

  lemma Assoc4(a: string, b: string, c: string, d: string, t: string)
    ensures (a + (b + (c + d))) + t == a + (b + (c + (d + t)))
  {
  }

  lemma LayoutRegroup(o: string, nl: string, sp: string, q: string, k1: string, c: string, s: string, path: string, cm: string,
                      k2: string, ob: string, items: string, cb: string, cl: string, rest: string)
    ensures o + nl + (sp + (q + (k1 + (q + (c + (s + q)))))) + path + (q + cm) + nl + (sp + (q + (k2 + (q + (c + (s + ob)))))) + items + cb + nl + cl + rest ==
      o + ((nl + sp) + (q + (k1 + (q + (c + ((s + (q + (path + q))) + (cm + ((nl + sp) + (q + (k2 + (q + (c + ((s + (ob + (items + cb))) + (nl + (cl + rest)))))))))))))))
  {
    var p2 := sp + (q + (k2 + (q + (c + (s + ob)))));
    var a := o + nl + (sp + (q + (k1 + (q + (c + (s + q)))))) + path + (q + cm);
    SplitTail(a, nl, p2, items, cb, cl, rest);
    RegroupTail(nl, sp, q, k2, c, s, ob, items, cb, cl, rest);
    RegroupHead(o, nl, sp, q, k1, c, s, path, cm,
      (nl + sp) + (q + (k2 + (q + (c + ((s + (ob + (items + cb))) + (nl + (cl + rest))))))));
  }

  lemma SplitTail(a: string, nl: string, p: string, items: string, cb: string, cl: string, rest: string)
    ensures a + nl + p + items + cb + nl + cl + rest == a + (nl + p + items + cb + nl + cl + rest)
  {
  }

  lemma RegroupTail(nl: string, sp: string, q: string, k: string, c: string, s: string, ob: string,
                    items: string, cb: string, cl: string, rest: string)
    ensures nl + (sp + (q + (k + (q + (c + (s + ob)))))) + items + cb + nl + cl + rest ==
      (nl + sp) + (q + (k + (q + (c + ((s + (ob + (items + cb))) + (nl + (cl + rest)))))))
  {
  }

  lemma RegroupHead(o: string, nl: string, sp: string, q: string, k: string, c: string, s: string,
                    path: string, cm: string, t: string)
    ensures o + nl + (sp + (q + (k + (q + (c + (s + q)))))) + path + (q + cm) + t ==
      o + ((nl + sp) + (q + (k + (q + (c + ((s + (q + (path + q))) + (cm + t)))))))
  {
  }

  lemma Regroup5(a: string, b: string, j: string, c: string, d: string, t: string)
    ensures (a + b) + j + (c + d) + t == a + (b + (j + (c + (d + t))))
  {
  }
}
